=== FILE: README.md ===
# Country explorer: a Dafny model of its pure core

The application is a set of Streamlit pages over two remote services: the
REST Countries directory (`https://restcountries.com/v3.1`) and Google's
Gemini text model. Under the widgets sits a small layer of sequential logic.
This project models that layer as pure Dafny functions over immutable data
and proves what the pages promise about it.

The network is a total function `net: Endpoint -> Reply`. Each lookup also
returns the endpoints it requested, so "no request is made" can be stated
and proved. A Gemini call is an input outcome: generated text or an
exception message. The model-selection probes are a function from model
name to outcome.

Modules, in dependency order:

- `Wrappers` (`wrappers.dfy`): `Option`.
- `Text` (`text.dfy`): the Python string built-ins the pages use:
  - `str.strip` over the full `isspace` set;
  - `startswith` and `in`;
  - slicing and `join`;
  - string `<=` as code-point lexicographic order;
  - `str(n)` for naturals, with its parse-back;
  - the "first n names and ..." abbreviation.
- `Records` (`records.dfy`): a country object of the directory, with `None`
  for each absent key. Also the endpoints, a reply (an exception, or a
  status and a decoded array), and the population and area sums.
- `Sorting` (`sorting.dfy`): the dashboard's sort. It is Python's stable
  `list.sort`: descending by population or area, ascending by common name.
  It is modelled as an insertion sort.
- `RegionRollup` (`rollup.dfy`): the `region_stats` dictionary and the
  region counts of the pie chart. Both are kept in first-seen order: entries
  never move, and a region not seen before gets a new entry at the end
  (`RollupFirstSeen`).
- `CountryAnalysis` (`analysis.dfy`): the dashboard. It covers:
  - the three-tier fetch (`/all`, then each region, then the built-in
    sample);
  - the filter, sort and truncate pipeline;
  - the overview metrics and the population unit;
  - the languages metric;
  - a whole run of the page.
- `CountryChatbot` (`chatbot.dfy`): the chatbot page. It covers the lookup
  and its normalised record, `build_prompt`, `ask_gemini`'s three outcomes,
  and the chat transcript across reruns.
- `CountryInsights` (`insights.dfy`): the travel-guide and comparison
  page. It covers that page's own lookup and placeholder policy, the
  short-circuit when Gemini is not configured, and the two tabs' control
  flow.
- `CountryInsight` (`insight.dfy`): `init_gemini`. It validates the key
  format, then probes model names in order and keeps the first success.

Behaviours of the code worth noting, all of which the model keeps:

- An exception on `/all` goes straight to the sample list and requests no
  region (`FetchAll`). Only a non-200 status or an empty array moves on to
  the per-region tier.
- In the chatbot, a capital list that is present but empty makes `[0]`
  raise. The handler turns that into "no data" for the whole lookup
  (`Normalize`). A missing capital key gives "Unknown". The travel-guide
  page instead shows "Unknown" for both cases (`PlaceholderContrast`).
- The chatbot's `name` and `official_name` have no default. A missing one
  is rendered as `None` in the prompt (`Show`).
- The prompt lists its fields in the order Name, Official Name, Capital,
  Region, Subregion, Population, Area, Languages, Currencies, Flag.
- The dashboard filter reads a missing region as `''`, so it matches no
  selectable region. The rollup and the pie read it as `'Unknown'`. Both
  defaults are kept.
- The travel-guide page's lookup has no empty-name guard of its own; only
  the button handler checks the name (`EmptyNameContrast`, `GuideTab`).

## Model

| member | source | states |
|---|---|---|
| Text.Strip | WebDevelopmentLab03/pages/Country_Chatbot.py:130 | `strip()` returns a slice of its input with nothing but whitespace removed on either side, and no whitespace at either end |
| Text.StripIdempotent | WebDevelopmentLab03/pages/Country_Chatbot.py:130 | stripping an already stripped reply changes nothing |
| Text.LexLeTotal | WebDevelopmentLab03/pages/Country_Analysis.py:441-442 | Python's string order used by the name sort compares any two names |
| Text.LexLeTransitive | WebDevelopmentLab03/pages/Country_Analysis.py:441-442 | that order is transitive |
| Text.LexLeAntisymmetric | WebDevelopmentLab03/pages/Country_Analysis.py:441-442 | names ordered both ways are equal |
| Text.NatToStringRoundTrip | WebDevelopmentLab03/pages/Country_Chatbot.py:96-97 | the decimal text of a population or area in the prompt reads back as the same number |
| Text.NatToString | WebDevelopmentLab03/pages/Country_Chatbot.py:96-97 | `str(n)` is a non-empty digit string with no leading zero |
| Text.Abbreviate | WebDevelopmentLab03/pages/Country_Analysis.py:362-365 | the first `min(limit, n)` names are shown as a prefix of the list; the "..." flag is set iff there are more than `limit` names; when it is not set, every name is shown |
| Records.Values | WebDevelopmentLab03/pages/Country_Chatbot.py:54 | `list(d.values())` keeps every value, in the object's order |
| Records.Keys | WebDevelopmentLab03/pages/Country_Chatbot.py:55 | `list(d.keys())` keeps every key (currency code), in the object's order |
| Records.SumsAppend | WebDevelopmentLab03/pages/Country_Analysis.py:453-455 | the population and area totals of two lists joined are the sums of their totals |
| Sorting.PrecedesTotal | WebDevelopmentLab03/pages/Country_Analysis.py:437-442 | under each of the three sort keys any two countries can be ordered |
| Sorting.PrecedesTransitive | WebDevelopmentLab03/pages/Country_Analysis.py:437-442 | each sort key orders countries transitively |
| Sorting.NameEquivIsSameName | WebDevelopmentLab03/pages/Country_Analysis.py:442 | two countries tie under the name sort only when their common names (default `''`) are equal |
| Sorting.Insert | WebDevelopmentLab03/pages/Country_Analysis.py:437-442 | one insertion step of the sort: the list grows by exactly one; `InsertPermutes`, `InsertSorted` and `InsertTies` state what it adds and where |
| Sorting.InsertPermutes | WebDevelopmentLab03/pages/Country_Analysis.py:437-442 | placing one country adds exactly that country, and its population and area to the sums |
| Sorting.InsertSorted | WebDevelopmentLab03/pages/Country_Analysis.py:437-442 | placing a country in a sorted list keeps it sorted |
| Sorting.InsertTies | WebDevelopmentLab03/pages/Country_Analysis.py:437-442 | a placed country goes after every country with an equal key |
| Sorting.Sort | WebDevelopmentLab03/pages/Country_Analysis.py:437-442 | `list.sort` by the chosen key keeps the list's length; `SortPermutes` and `SortStable` state that it orders, permutes and is stable |
| Sorting.SortPermutes | WebDevelopmentLab03/pages/Country_Analysis.py:437-442 | the sorted list is ordered by the key (population or area descending, name ascending), is a permutation of its input, and has the same population and area totals |
| Sorting.SortStable | WebDevelopmentLab03/pages/Country_Analysis.py:437-442 | countries with equal keys keep their input order, including under `reverse=True` |
| Sorting.PopulationTieExample | WebDevelopmentLab03/pages/Country_Analysis.py:437-438 | a concrete tie: B and A with population 5 stay in input order behind C with 10 |
| RegionRollup.Tally | WebDevelopmentLab03/pages/Country_Analysis.py:529-535 | one iteration of the `region_stats` loop adds an entry iff the country's region has none, and otherwise keeps the number of entries |
| RegionRollup.TallyFind | WebDevelopmentLab03/pages/Country_Analysis.py:529-535 | counting one country creates or bumps the entry of its region (default `'Unknown'`) by one and its population and area, and leaves every other region's entry as it was |
| RegionRollup.TallyTotals | WebDevelopmentLab03/pages/Country_Analysis.py:533-535 | each country adds one to the count total and its population and area to the other totals |
| RegionRollup.TallyKeepsOrder | WebDevelopmentLab03/pages/Country_Analysis.py:529-535 | one loop step leaves every existing entry in its place with its region, and a new region's entry (count 1, the country's population and area) goes at the end |
| RegionRollup.TallyKeepsDistinct | WebDevelopmentLab03/pages/Country_Analysis.py:530-531 | a region gets a new entry only when it has none, so no region appears twice |
| RegionRollup.RollupPerRegion | WebDevelopmentLab03/pages/Country_Analysis.py:527-535 | every region appears at most once; the entry of a region holds exactly the number, total population and total area of the countries in it, and a region without countries has no entry |
| RegionRollup.Rollup | WebDevelopmentLab03/pages/Country_Analysis.py:527-535 | the `region_stats` loop over all countries has at most one entry per country; `RollupPerRegion` gives each entry's contents |
| RegionRollup.RollupTotals | WebDevelopmentLab03/pages/Country_Analysis.py:527-535 | the per-region counts add up to the number of countries, and the per-region population and area add up to the grand totals; the rollup is empty iff the list is |
| RegionRollup.RollupFirstSeen | WebDevelopmentLab03/pages/Country_Analysis.py:527-535 | the entries are in first-seen order: one more country keeps every entry's place and region, and a country whose region has no earlier country opens a fresh entry at the end |
| RegionRollup.FindDistinct | WebDevelopmentLab03/pages/Country_Analysis.py:538 | looking up a listed region finds its own entry |
| RegionRollup.Slices | WebDevelopmentLab03/pages/Country_Analysis.py:242 | one pie slice per region entry with its count; the slice sizes add up to the count total |
| RegionRollup.RegionPie | WebDevelopmentLab03/pages/Country_Analysis.py:232-240 | there is no chart iff there are no countries; otherwise the slice sizes add up to the number of countries, each slice is the positive count of its region, and no region has two slices |
| CountryAnalysis.SampleData | WebDevelopmentLab03/pages/Country_Analysis.py:89-183 | the built-in list holds ten countries |
| CountryAnalysis.RegionRequests | WebDevelopmentLab03/pages/Country_Analysis.py:70-75 | one region request per slug, in the list's order |
| CountryAnalysis.RegionPayload | WebDevelopmentLab03/pages/Country_Analysis.py:73-80 | the per-region loop's concatenation; its order and members are stated by `RegionPayloadAppend`, `RegionPayloadEmpty` and `RegionPayloadMembers` |
| CountryAnalysis.RegionPayloadAppend | WebDevelopmentLab03/pages/Country_Analysis.py:73-78 | region payloads are concatenated in the order the regions are requested |
| CountryAnalysis.RegionPayloadEmpty | WebDevelopmentLab03/pages/Country_Analysis.py:73-82 | the concatenation is empty iff no region answered 200 with a non-empty array |
| CountryAnalysis.RegionPayloadMembers | WebDevelopmentLab03/pages/Country_Analysis.py:73-80 | a country is in the concatenation iff some region's 200 answer holds it; failed regions add nothing |
| CountryAnalysis.FetchByRegions | WebDevelopmentLab03/pages/Country_Analysis.py:68-87 | all five regions are requested in the fixed order; the sample list is used iff no region yields a country, otherwise the concatenation is used; the result is never empty |
| CountryAnalysis.FetchAll | WebDevelopmentLab03/pages/Country_Analysis.py:48-66 | `/all` is requested first. A 200 with a non-empty array is used unchanged and nothing else is requested. An exception gives exactly the sample list with no region requested. Any other answer falls through: the data, tier and requests are then those of the region tier. Whenever the sample tier is reported, the data is the sample list. The page always has countries |
| CountryAnalysis.PopulationUnit | WebDevelopmentLab03/pages/Country_Analysis.py:185-194 | the unit chosen puts the quotient before rounding, `population / divisor`, at 1 or more (unless plain) and below 1000 (unless billions) |
| CountryAnalysis.PopulationUnitUnique | WebDevelopmentLab03/pages/Country_Analysis.py:185-194 | exactly one unit meets those bounds, so the threshold chain picks the only valid one |
| CountryAnalysis.PopulationUnitMonotone | WebDevelopmentLab03/pages/Country_Analysis.py:185-194 | a larger population never gets a smaller unit |
| CountryAnalysis.LanguageMetric | WebDevelopmentLab03/pages/Country_Analysis.py:360-366 | there is no metric when the language map is missing or empty; otherwise it shows the first three names in map order, with "..." iff the map has more than three |
| CountryAnalysis.Kept | WebDevelopmentLab03/pages/Country_Analysis.py:425-432 | the filter test: region "All" or equal to the country's region (default `''`), and population (default 0) at least the minimum |
| CountryAnalysis.FilterCountries | WebDevelopmentLab03/pages/Country_Analysis.py:423-434 | the filter loop keeps no more countries than it is given, and a first country that passes the test comes first; `FilterKeepsExactly` states which countries are kept |
| CountryAnalysis.FilterKeepsExactly | WebDevelopmentLab03/pages/Country_Analysis.py:423-434 | a country is kept iff the region is "All" or equals its region (default `''`) and its population (default 0) is at least the minimum; each kept country appears as often as in the input |
| CountryAnalysis.FilterAppend | WebDevelopmentLab03/pages/Country_Analysis.py:423-434 | the filter keeps input order: filtering a concatenation concatenates the filtered parts |
| CountryAnalysis.Summarize | WebDevelopmentLab03/pages/Country_Analysis.py:452-455 | the count is the number of countries shown, the totals are the population and area sums over exactly that list, and average times count is the total population; with none shown the average is 0 |
| CountryAnalysis.Analyze | WebDevelopmentLab03/pages/Country_Analysis.py:423-455 | filter, sort, cut to the cap: at most the cap is shown, and the overview counts and sums exactly the shown list |
| CountryAnalysis.AnalyzeSelects | WebDevelopmentLab03/pages/Country_Analysis.py:423-445 | `min(cap, number kept)` countries are shown; all pass the filter, come in sort order, and are drawn from the kept ones |
| CountryAnalysis.AnalyzeTakesTop | WebDevelopmentLab03/pages/Country_Analysis.py:437-445 | truncation keeps the top of the sorted list: each kept country left out ranks at or after each shown one |
| CountryAnalysis.AnalyzeStable | WebDevelopmentLab03/pages/Country_Analysis.py:437-445 | for every key class, the shown members are the first members of that class in filter order |
| CountryAnalysis.AnalyzeOverview | WebDevelopmentLab03/pages/Country_Analysis.py:445-455 | the overview counts and sums the shown (truncated) list for every cap, not the kept one; its population total is at least count times the minimum; with nothing cut off the totals are those of all kept countries |
| CountryAnalysis.SampleAsiaByPopulation | WebDevelopmentLab03/pages/Country_Analysis.py:423-445 | on the sample list, region Asia with minimum 0, cap 50 and the population sort shows China, India, Japan |
| CountryAnalysis.DashboardPage | WebDevelopmentLab03/pages/Country_Analysis.py:487-535 | the region rollup is the rollup of the whole fetched list, whatever the filters, so its totals are that list's size and sums; the region pie is drawn iff more than one country is shown, and is then the pie of exactly the shown countries |
| CountryChatbot.Normalize | WebDevelopmentLab03/pages/Country_Chatbot.py:43-60 | the first match normalises to "no data" iff its capital list is present but empty |
| CountryChatbot.NormalizeKeepsPresent | WebDevelopmentLab03/pages/Country_Chatbot.py:46-56 | every field present in the object is carried over unchanged: names, first capital, region, subregion, population, area, language names in order, currency codes in order, flag |
| CountryChatbot.NormalizePlaceholders | WebDevelopmentLab03/pages/Country_Chatbot.py:47-56 | for every object the lookup accepts, each missing field gets its default: no names, capital, region and subregion "Unknown", population and area 0, empty language and currency lists, empty flag; the object with no keys gives exactly these placeholders |
| CountryChatbot.FetchCountryData | WebDevelopmentLab03/pages/Country_Chatbot.py:31-62 | an empty name gives no data and makes no request; otherwise one name search is made, and there is data iff it answered 200 with a non-empty array whose first entry normalises, in which case that entry's normalisation is returned |
| CountryChatbot.FranceExample | WebDevelopmentLab03/pages/Country_Chatbot.py:40-57 | the France answer yields name France, capital Paris, population 67391582, languages [French], currencies [EUR] |
| CountryChatbot.HistoryBlock | WebDevelopmentLab03/pages/Country_Chatbot.py:80-84 | the transcript is empty iff there are no turns, since every turn adds a non-empty line |
| CountryChatbot.HistoryBlockAppend | WebDevelopmentLab03/pages/Country_Chatbot.py:80-84 | the transcript of a longer history is the earlier transcript followed by the new lines, so it is chronological |
| CountryChatbot.HistoryBlockLines | WebDevelopmentLab03/pages/Country_Chatbot.py:80-84 | the transcript has one line break per turn plus those inside the messages |
| CountryChatbot.InfoBlock | WebDevelopmentLab03/pages/Country_Chatbot.py:86-101 | the country block, either the fixed sentence or the header and one line per field; `InfoBlockLayout` states its layout |
| CountryChatbot.InfoBlockLayout | WebDevelopmentLab03/pages/Country_Chatbot.py:87-101 | without data the block is exactly "No country data was provided."; with data it differs from that, and its i-th line after the header is the i-th field in the order Name, Official Name, Capital, Region, Subregion, Population, Area, Languages, Currencies, Flag |
| CountryChatbot.BuildPrompt | WebDevelopmentLab03/pages/Country_Chatbot.py:65-117 | `build_prompt` fills the template with the transcript, the country block and the question; `PromptSectionOrder` states where each sits |
| CountryChatbot.PromptSectionOrder | WebDevelopmentLab03/pages/Country_Chatbot.py:103-117 | the prompt holds the instructions, the transcript, the country block and the question at increasing, non-overlapping offsets, and the prompt ends with the closing line right after the question |
| CountryChatbot.PromptClosing | WebDevelopmentLab03/pages/Country_Chatbot.py:112-116 | the text after the question is exactly the closing instruction line |
| CountryChatbot.AskGemini | WebDevelopmentLab03/pages/Country_Chatbot.py:121-133 | "not available" iff not ready (no model call); the apology iff ready and the call raised; otherwise the answer is the model's text with whitespace removed from both ends (`Strip`), a slice of that text with only whitespace around it |
| CountryChatbot.Submit | WebDevelopmentLab03/pages/Country_Chatbot.py:161-176 | an empty input changes nothing and builds no prompt. Any other input appends one user turn, then one assistant turn holding the reply, and leaves earlier turns unchanged. The prompt is built from the history that already holds the new user turn |
| CountryChatbot.PromptEndsWithQuestionLine | WebDevelopmentLab03/pages/Country_Chatbot.py:163-170 | in that prompt the transcript ends with the line `USER: <message>` |
| CountryChatbot.SubmitAlternates | WebDevelopmentLab03/pages/Country_Chatbot.py:161-176 | a submission keeps the transcript alternating user and assistant, the user turns being the messages |
| CountryChatbot.Replay | WebDevelopmentLab03/pages/Country_Chatbot.py:161-176 | the history after a session of submissions from the empty start; `ReplayShape` and `ReplayExtends` state its shape |
| CountryChatbot.ReplayShape | WebDevelopmentLab03/pages/Country_Chatbot.py:161-176 | from the empty start, a session's transcript has two turns per non-empty message, alternating user and assistant, the user turns being the messages in order |
| CountryChatbot.ReplayExtends | WebDevelopmentLab03/pages/Country_Chatbot.py:161-176 | the transcript after part of a session is a prefix of the transcript after all of it |
| CountryInsights.LookupRaw | Country_Insights.py:46-55 | exactly one name search is made, even for an empty name; the result is the first match iff it answered 200 with a non-empty array, otherwise nothing |
| CountryInsights.Comparison | Country_Insights.py:57-61 | the pair is the two lookups in argument order, the first name requested first |
| CountryInsights.ComparisonSwap | Country_Insights.py:57-61 | swapping the names swaps the pair |
| CountryInsights.EmptyNameContrast | Country_Insights.py:46-49 | for an empty name this lookup still requests the API, while the chatbot's does not |
| CountryInsights.CapitalOf | Country_Insights.py:69 | the capital is the first element of a non-empty list, otherwise "Unknown" |
| CountryInsights.LanguagesOf | Country_Insights.py:73 | the languages are the map's values when the map is present and non-empty, otherwise `["Unknown"]`; never empty |
| CountryInsights.FactsOf | Country_Insights.py:68-73 | the values the guide prompt is filled with; the language list is never empty |
| CountryInsights.FactsKeepPresent | Country_Insights.py:68-73 | every field the object has reaches the prompt facts unchanged; a non-empty capital list gives its first element |
| CountryInsights.FactsPlaceholders | Country_Insights.py:68-73 | missing fields become name, capital and region "Unknown", population and area 0, languages `["Unknown"]` |
| CountryInsights.PlaceholderContrast | Country_Insights.py:69 | for an empty capital list the chatbot's normalisation fails while this page shows "Unknown" |
| CountryInsights.LanguageContrast | Country_Insights.py:73 | for any object the chatbot accepts whose languages are absent or an empty map, the chatbot keeps an empty list while this page uses `["Unknown"]` |
| CountryInsights.Generate | Country_Insights.py:63-101 | when not configured, the fixed notice with no model call; otherwise the request is sent, and the model's text is returned unstripped, or the error prefix followed by exactly the exception message |
| CountryInsights.TravelGuide | Country_Insights.py:63-101 | the guide request carries the placeholder facts, traveller type and duration; the result is as for `Generate`, with prefix "Error generating travel guide: " |
| CountryInsights.CountryComparison | Country_Insights.py:103-142 | the comparison request carries both countries' facts, in order, and the aspect; the result is as for `Generate`, with prefix "Error generating comparison: " |
| CountryInsights.FailedGenerationsDistinct | Country_Insights.py:99-142 | when the model call fails, the guide's error text never starts with the comparison prefix, the comparison's never starts with the guide prefix, and neither is the not-configured notice |
| CountryInsights.GuideKeepsWhitespace | Country_Insights.py:97-99 | a guide keeps the whitespace around the model's text, where the chatbot strips it |
| CountryInsights.GuideTab | Country_Insights.py:200-223 | an empty name asks for one and makes no request; a failed lookup reports the name; otherwise it shows the guide for the first match, its capital and population, and the first two language names (all of them when there are fewer), a prefix of the list, with "..." iff there are more than two |
| CountryInsights.MissingNames | Country_Insights.py:296-299 | the list has one entry per failed lookup, the first name first and the second name last |
| CountryInsights.ComparisonTab | Country_Insights.py:254-301 | both names are needed, and nothing is requested otherwise; with both names both are requested in order; the comparison is shown iff both lookups succeed, and is then the generation for the first match of the first name and of the second, in that order, with each one's population and area; otherwise the missing list is `MissingNames` of the two lookups |
| CountryInsights.MissingExactly | Country_Insights.py:295-299 | a name is listed iff its lookup failed, in argument order, also when the same name is typed twice; with both failed the list is `[first, second]` |
| CountryInsight.Classify | WebDevelopmentLab03/pages/Country_Insight.py:50-58 | "not found" iff the message contains 404; "rate limit" iff it contains 429 but not 404; otherwise the detail is the message's first 50 characters (all of it when shorter) |
| CountryInsight.ProbeNotices | WebDevelopmentLab03/pages/Country_Insight.py:46-58 | after its "Trying" line, a probe adds at most one notice: success for a non-empty answer, nothing for an empty one, and for an exception exactly the warning `Classify` gives for its message |
| CountryInsight.FirstSuccess | WebDevelopmentLab03/pages/Country_Insight.py:32-58 | the probed names are a prefix of the list. A chosen model is the last one probed and its answer is non-empty, and every earlier probe failed. With no model chosen, every name was probed and every probe failed |
| CountryInsight.FirstSuccessIsFirst | WebDevelopmentLab03/pages/Country_Insight.py:32-48 | the chosen model is the first name in list order whose probe succeeds, and nothing after it is probed |
| CountryInsight.NoSuccessProbesAll | WebDevelopmentLab03/pages/Country_Insight.py:32-61 | when no probe succeeds, every name is probed and none is chosen |
| CountryInsight.SelectionIgnoresMessages | WebDevelopmentLab03/pages/Country_Insight.py:50-58 | the choice depends only on which probes succeed; exception messages and their 404/429 classification change only the notices |
| CountryInsight.NoticesFollowProbes | WebDevelopmentLab03/pages/Country_Insight.py:32-35 | a "Trying" notice is shown for each probed name, in probe order, and for no other |
| CountryInsight.InitGemini | WebDevelopmentLab03/pages/Country_Insight.py:7-65 | a missing key, a malformed key (empty or not starting with "AIza") or a setup exception gives no model and probes nothing; a setup exception shows only its message's first 100 characters. With a well-formed key and a clean setup the choice and the probed names are those of the in-order search, so a model is chosen whenever some probe succeeds, and it is a listed name whose probe succeeded. If every probe fails, all four names were probed and the last notice is "all failed" |
| CountryInsight.ThirdModelExample | WebDevelopmentLab03/pages/Country_Insight.py:25-58 | with a 404 on the first model and an empty answer from the second, the third model is chosen and the fourth is never probed |

## Left out

- HTTP and Gemini clients (sessions, timeouts, `response.json()`, `genai.configure`) are outside the model. Replies and model outcomes are inputs, and a body that is not a JSON array counts as an exception.
- `get_all_countries` catches only `requests` exceptions. Any other error would propagate out of the page. The model treats every failure of the `/all` request as one caught exception.
- JSON `null` values are not distinguished from absent keys. The country record keeps only the keys the pages read.
- Python truthiness of the returned object (`if country_data:`) is left out. On the travel-guide page an empty object `{}` counts as "not found". The model cannot tell an empty object from one holding only keys it does not record, so it treats every returned object as found.
- Floating point is not modelled:
  - areas are taken as whole numbers, so an area prints as `551695` where Python prints `551695.0`;
  - the `.2f`/`.1f` unit figures, `:,` digit grouping and the `:,.0f` area are not modelled;
  - population density and the per-region average population are not modelled.
  `PopulationUnit` models only the choice of unit, over real numbers.
- The wording of the travel-guide and comparison prompts is not modelled. Only the facts, the user's choices and the order of the two countries that go into them are.
- The text of the sidebar warnings and error banners is not modelled. Which case is reported is modelled (`Notice`, `GuideView`, `ComparisonView`, `Tier`).
- The instructions string of the chatbot prompt is kept verbatim. Nothing is proved about its wording.
- Streamlit rendering, CSS, tabs, spinners, `st.cache_resource` and reruns are not modelled. So are the selection widgets and their defaults (the country chosen for details, the countries in the population chart, the scatter plot filter). The chat history is modelled only as the list the page appends to.
- Plotly and pandas figure construction is not modelled. Only the counts feeding the region pie are.
- `Home_Page.py` is static text with no logic. The `datetime` footer depends on the clock.
- The network is a function of the endpoint, so two requests to the same endpoint get the same answer. `ComparisonSwap` and the comparison of a name with itself rely on this. A service whose answer changes between the two lookups of one comparison is not modelled.
- The API key in the secrets is taken to be a string. A setup exception is reduced to its message.
- CountryInsight.InitGemini: an exception raised while writing a sidebar notice inside the probe loop is not modelled.

=== FILE: analysis.dfy ===
/** The Country Analysis dashboard: the three-tier fetch of the country list,
    the filter / sort / truncate pipeline behind the country explorer, the
    overview metrics, the regional rollup, and the two display helpers
    (population unit, language list). */
module CountryAnalysis {
  import opened Wrappers
  import opened Text
  import opened Records
  import opened Sorting
  import opened RegionRollup

  // ---------------------------------------------------------------------
  // Fetching
  // ---------------------------------------------------------------------

  /** The regions queried one by one when `/all` gives nothing, in order. */
  const RegionSlugs: seq<string> := ["africa", "americas", "asia", "europe", "oceania"]

  /** Which tier produced the list (and so which banner the page shows). */
  datatype Tier = Live | ByRegions | Sample

  datatype Fetched = Fetched(data: seq<Country>, tier: Tier, requested: seq<Endpoint>)

  function SampleCountry(common: string, official: string, population: nat, area: nat,
                         region: string, capital: string, languages: seq<Entry>): Country
  {
    Country(Some(Names(Some(common), Some(official))), Some([capital]), Some(region), None,
            Some(population), Some(area), Some(languages), None, None)
  }

  const UnitedStates := SampleCountry("United States", "United States of America", 331002651, 9833517, "Americas", "Washington D.C.", [Entry("eng", "English")])
  const India := SampleCountry("India", "Republic of India", 1380004385, 3287263, "Asia", "New Delhi", [Entry("hin", "Hindi"), Entry("eng", "English")])
  const China := SampleCountry("China", "People's Republic of China", 1402112000, 9706961, "Asia", "Beijing", [Entry("zho", "Chinese")])
  const Brazil := SampleCountry("Brazil", "Federative Republic of Brazil", 212559417, 8515767, "Americas", "Bras\U{ED}lia", [Entry("por", "Portuguese")])
  const Germany := SampleCountry("Germany", "Federal Republic of Germany", 83240525, 357114, "Europe", "Berlin", [Entry("deu", "German")])
  const Nigeria := SampleCountry("Nigeria", "Federal Republic of Nigeria", 206139587, 923768, "Africa", "Abuja", [Entry("eng", "English")])
  const Australia := SampleCountry("Australia", "Commonwealth of Australia", 25499884, 7692024, "Oceania", "Canberra", [Entry("eng", "English")])
  const Canada := SampleCountry("Canada", "Canada", 38005238, 9984670, "Americas", "Ottawa", [Entry("eng", "English"), Entry("fra", "French")])
  const Japan := SampleCountry("Japan", "Japan", 125836021, 377930, "Asia", "Tokyo", [Entry("jpn", "Japanese")])
  const France := SampleCountry("France", "French Republic", 67391582, 551695, "Europe", "Paris", [Entry("fra", "French")])

  /** The built-in list used when the service cannot be reached. */
  function SampleData(): (s: seq<Country>)
    ensures |s| == 10
  {
    [UnitedStates, India, China, Brazil, Germany, Nigeria, Australia, Canada, Japan, France]
  }

  function RegionRequests(slugs: seq<string>): (r: seq<Endpoint>)
    ensures |r| == |slugs| && forall i :: 0 <= i < |slugs| ==> r[i] == RegionSearch(slugs[i])
  {
    if |slugs| == 0 then [] else [RegionSearch(slugs[0])] + RegionRequests(slugs[1..])
  }

  /** What one region request adds: the body of a 200 response, else nothing
      (a failed request is skipped). */
  function RegionContribution(r: Reply): seq<Country> {
    if r.Response? && r.status == 200 then r.body else []
  }

  /** The region payloads concatenated in request order. */
  function RegionPayload(slugs: seq<string>, net: Endpoint -> Reply): seq<Country> {
    if |slugs| == 0 then []
    else RegionContribution(net(RegionSearch(slugs[0]))) + RegionPayload(slugs[1..], net)
  }

  /** Concatenation follows the order of the region list. */
  lemma {:induction false} RegionPayloadAppend(a: seq<string>, b: seq<string>, net: Endpoint -> Reply)
    ensures RegionPayload(a + b, net) == RegionPayload(a, net) + RegionPayload(b, net)
  {
    if |a| == 0 {
      assert a + b == b;
    } else {
      assert (a + b)[1..] == a[1..] + b;
      RegionPayloadAppend(a[1..], b, net);
    }
  }

  /** The concatenation is empty exactly when no region answered 200 with a
      non-empty array. */
  lemma {:induction false} RegionPayloadEmpty(slugs: seq<string>, net: Endpoint -> Reply)
    ensures RegionPayload(slugs, net) == [] <==>
            forall i :: 0 <= i < |slugs| ==> !HasMatches(net(RegionSearch(slugs[i])))
  {
    if |slugs| > 0 {
      RegionPayloadEmpty(slugs[1..], net);
      assert forall i :: 1 <= i < |slugs| ==> slugs[1..][i - 1] == slugs[i];
    }
  }

  /** A country is in the concatenation exactly when some region answered
      200 with it in its array. */
  lemma {:induction false} RegionPayloadMembers(slugs: seq<string>, net: Endpoint -> Reply, c: Country)
    ensures c in RegionPayload(slugs, net) <==>
            exists i :: 0 <= i < |slugs| && c in RegionContribution(net(RegionSearch(slugs[i])))
  {
    if |slugs| > 0 {
      RegionPayloadMembers(slugs[1..], net, c);
      if c in RegionPayload(slugs[1..], net) {
        var i :| 0 <= i < |slugs[1..]| && c in RegionContribution(net(RegionSearch(slugs[1..][i])));
        assert c in RegionContribution(net(RegionSearch(slugs[i + 1])));
      }
      if exists i :: 0 <= i < |slugs| && c in RegionContribution(net(RegionSearch(slugs[i]))) {
        var i :| 0 <= i < |slugs| && c in RegionContribution(net(RegionSearch(slugs[i])));
        if i > 0 {
          assert slugs[1..][i - 1] == slugs[i];
        }
      }
    }
  }

  /** `get_countries_by_regions`: every region is requested, in order; the
      sample list is used exactly when none of them yields a country. */
  function FetchByRegions(net: Endpoint -> Reply): (f: Fetched)
    ensures f.requested == RegionRequests(RegionSlugs)
    ensures f.tier != Live
    ensures f.tier == Sample <==>
            forall i :: 0 <= i < |RegionSlugs| ==> !HasMatches(net(RegionSearch(RegionSlugs[i])))
    ensures f.tier == Sample ==> f.data == SampleData()
    ensures f.tier == ByRegions ==> f.data == RegionPayload(RegionSlugs, net)
    ensures |f.data| > 0
  {
    RegionPayloadEmpty(RegionSlugs, net);
    var payload := RegionPayload(RegionSlugs, net);
    if |payload| > 0 then Fetched(payload, ByRegions, RegionRequests(RegionSlugs))
    else Fetched(SampleData(), Sample, RegionRequests(RegionSlugs))
  }

  /** `get_all_countries`: a 200 with a non-empty array from `/all` is used
      as is; any other response falls back to the region tier; an exception
      goes straight to the sample list without requesting any region. The
      page therefore always has countries to show. */
  function FetchAll(net: Endpoint -> Reply): (f: Fetched)
    ensures |f.data| > 0
    ensures |f.requested| > 0 && f.requested[0] == AllCountries
    ensures f.tier == Live <==> HasMatches(net(AllCountries))
    ensures f.tier == Live ==> f.data == net(AllCountries).body && f.requested == [AllCountries]
    ensures net(AllCountries).Raised? ==> f.tier == Sample && f.requested == [AllCountries]
    ensures f.tier == Sample ==> f.data == SampleData()
    ensures net(AllCountries).Response? && !HasMatches(net(AllCountries)) ==>
              && f.requested == [AllCountries] + RegionRequests(RegionSlugs)
              && f.data == FetchByRegions(net).data
              && f.tier == FetchByRegions(net).tier
  {
    match net(AllCountries)
    case Raised => Fetched(SampleData(), Sample, [AllCountries])
    case Response(status, body) =>
      if status == 200 && |body| > 0 then Fetched(body, Live, [AllCountries])
      else
        var t := FetchByRegions(net);
        Fetched(t.data, t.tier, [AllCountries] + t.requested)
  }

  // ---------------------------------------------------------------------
  // Display helpers
  // ---------------------------------------------------------------------

  datatype Unit = Billions | Millions | Thousands | Plain

  function Divisor(u: Unit): real {
    match u
    case Billions => 1000000000.0
    case Millions => 1000000.0
    case Thousands => 1000.0
    case Plain => 1.0
  }

  /** `format_population`'s choice of unit: the quotient before rounding,
      `p / Divisor(u)`, is at least 1 (unless plain) and below 1000 (unless
      billions). */
  function PopulationUnit(p: real): (u: Unit)
    ensures u != Plain ==> Divisor(u) <= p
    ensures u != Billions ==> p < 1000.0 * Divisor(u)
  {
    if p >= 1000000000.0 then Billions
    else if p >= 1000000.0 then Millions
    else if p >= 1000.0 then Thousands
    else Plain
  }

  /** Those two bounds pick exactly one unit for every number. */
  lemma PopulationUnitUnique(p: real, u: Unit)
    requires u != Plain ==> Divisor(u) <= p
    requires u != Billions ==> p < 1000.0 * Divisor(u)
    ensures u == PopulationUnit(p)
  {
  }

  function UnitRank(u: Unit): nat {
    match u
    case Plain => 0
    case Thousands => 1
    case Millions => 2
    case Billions => 3
  }

  /** A larger population never gets a smaller unit. */
  lemma PopulationUnitMonotone(p: real, q: real)
    requires p <= q
    ensures UnitRank(PopulationUnit(p)) <= UnitRank(PopulationUnit(q))
  {
  }

  /** The languages metric of `display_country_details`: absent for a
      missing or empty map, otherwise the first three names and "..." when
      the map has more. */
  function LanguageMetric(c: Country): (r: Option<Abbreviation>)
    ensures r.None? <==> c.languages.None? || |c.languages.value| == 0
    ensures r.Some? ==> r.value.shown <= Values(c.languages.value)
    ensures r.Some? ==> |r.value.shown| == if |c.languages.value| < 3 then |c.languages.value| else 3
    ensures r.Some? ==> (r.value.more <==> |c.languages.value| > 3)
  {
    match c.languages
    case None => None
    case Some(m) => if |m| == 0 then None else Some(Abbreviate(Values(m), 3))
  }

  // ---------------------------------------------------------------------
  // Filter, sort, truncate, overview
  // ---------------------------------------------------------------------

  /** The sidebar's choices. */
  datatype Filters = Filters(region: string, minPopulation: int, limit: nat, sortBy: SortKey)

  /** `country.get('region', '')`: the filter's region default differs from
      the rollup's `'Unknown'`. */
  function FilterRegionOf(c: Country): string {
    c.region.GetOr("")
  }

  predicate Kept(c: Country, f: Filters) {
    (f.region == "All" || FilterRegionOf(c) == f.region) && PopulationOf(c) >= f.minPopulation
  }

  /** The filter loop of `main`. */
  function FilterCountries(cs: seq<Country>, f: Filters): (r: seq<Country>)
    ensures |r| <= |cs|
    ensures |cs| > 0 && Kept(cs[0], f) ==> |r| > 0 && r[0] == cs[0]
  {
    if |cs| == 0 then []
    else (if Kept(cs[0], f) then [cs[0]] else []) + FilterCountries(cs[1..], f)
  }

  /** The filter keeps exactly the countries that pass both tests, each as
      often as it occurs in the input. */
  lemma {:induction false} FilterKeepsExactly(cs: seq<Country>, f: Filters)
    ensures forall c :: multiset(FilterCountries(cs, f))[c] == if Kept(c, f) then multiset(cs)[c] else 0
    ensures forall i :: 0 <= i < |FilterCountries(cs, f)| ==> Kept(FilterCountries(cs, f)[i], f)
  {
    if |cs| > 0 {
      FilterKeepsExactly(cs[1..], f);
      assert cs == [cs[0]] + cs[1..];
      var r := FilterCountries(cs, f);
      var rest := FilterCountries(cs[1..], f);
      assert r == (if Kept(cs[0], f) then [cs[0]] else []) + rest;
      forall i | 0 <= i < |r|
        ensures Kept(r[i], f)
      {
        if Kept(cs[0], f) && i > 0 { assert r[i] == rest[i - 1]; }
        if !Kept(cs[0], f) { assert r[i] == rest[i]; }
      }
    }
  }

  /** Filtering keeps input order: it distributes over concatenation. */
  lemma {:induction false} FilterAppend(a: seq<Country>, b: seq<Country>, f: Filters)
    ensures FilterCountries(a + b, f) == FilterCountries(a, f) + FilterCountries(b, f)
  {
    if |a| == 0 {
      assert a + b == b;
    } else {
      assert (a + b)[1..] == a[1..] + b;
      FilterAppend(a[1..], b, f);
    }
  }

  datatype Overview = Overview(count: nat, totalPopulation: nat, averagePopulation: real, totalArea: nat)

  /** The four "Global Overview" metrics over the shown countries. */
  function Summarize(shown: seq<Country>): (o: Overview)
    ensures o.count == |shown|
    ensures o.totalPopulation == SumPopulation(shown) && o.totalArea == SumArea(shown)
    ensures o.count == 0 ==> o.averagePopulation == 0.0 && o.totalPopulation == 0 && o.totalArea == 0
    ensures o.count > 0 ==> o.averagePopulation * (o.count as real) == o.totalPopulation as real
  {
    var total := SumPopulation(shown);
    Overview(|shown|, total, if |shown| > 0 then total as real / |shown| as real else 0.0, SumArea(shown))
  }

  datatype View = View(shown: seq<Country>, overview: Overview)

  /** The filter, sort and truncate block of `main` and the overview
      computed on what is left. */
  function Analyze(cs: seq<Country>, f: Filters): (v: View)
    ensures |v.shown| <= f.limit
    ensures v.overview.count == |v.shown|
    ensures v.overview.totalPopulation == SumPopulation(v.shown) && v.overview.totalArea == SumArea(v.shown)
  {
    var shown := Take(Sort(f.sortBy, FilterCountries(cs, f)), f.limit);
    View(shown, Summarize(shown))
  }

  lemma {:induction false} SumAtLeast(s: seq<Country>, m: int)
    requires forall i :: 0 <= i < |s| ==> PopulationOf(s[i]) >= m
    ensures SumPopulation(s) >= |s| * m
  {
    if |s| > 0 {
      SumAtLeast(s[1..], m);
      assert |s| * m == (|s| - 1) * m + m;
    }
  }

  /** A prefix of a sorted list is sorted and drawn from the list. */
  lemma SortedPrefix(k: SortKey, sorted: seq<Country>, m: nat)
    requires Sorted(k, sorted) && m <= |sorted|
    ensures Sorted(k, sorted[..m])
    ensures multiset(sorted[..m]) <= multiset(sorted)
  {
    assert sorted == sorted[..m] + sorted[m..];
    assert multiset(sorted) == multiset(sorted[..m]) + multiset(sorted[m..]);
  }

  /** The shown list holds countries that pass the filter, in sort order,
      as many of them as the limit allows. */
  lemma AnalyzeSelects(cs: seq<Country>, f: Filters)
    ensures var v := Analyze(cs, f); var kept := FilterCountries(cs, f);
      && |v.shown| == (if f.limit < |kept| then f.limit else |kept|)
      && (forall i :: 0 <= i < |v.shown| ==> Kept(v.shown[i], f))
      && Sorted(f.sortBy, v.shown)
      && multiset(v.shown) <= multiset(kept)
  {
    var kept := FilterCountries(cs, f);
    var sorted := Sort(f.sortBy, kept);
    var m := if f.limit < |sorted| then f.limit else |sorted|;
    assert Analyze(cs, f).shown == sorted[..m];
    SortPermutes(f.sortBy, kept);
    SortedPrefix(f.sortBy, sorted, m);
    assert forall i :: 0 <= i < |kept| ==> Kept(kept[i], f) by {
      FilterKeepsExactly(cs, f);
    }
    MembersKept(sorted[..m], kept, f);
  }

  /** Whatever is drawn from a list of countries that pass the filter
      passes it too. */
  lemma MembersKept(shown: seq<Country>, kept: seq<Country>, f: Filters)
    requires multiset(shown) <= multiset(kept)
    requires forall i :: 0 <= i < |kept| ==> Kept(kept[i], f)
    ensures forall i :: 0 <= i < |shown| ==> Kept(shown[i], f)
  {
    forall i | 0 <= i < |shown|
      ensures Kept(shown[i], f)
    {
      assert shown[i] in multiset(shown);
      assert shown[i] in multiset(kept);
    }
  }

  lemma SortedPrefixFirst(k: SortKey, sorted: seq<Country>, m: nat)
    requires Sorted(k, sorted) && m <= |sorted|
    ensures forall s, x :: s in sorted[..m] && x in multiset(sorted) - multiset(sorted[..m]) ==> Precedes(k, s, x)
  {
    assert sorted == sorted[..m] + sorted[m..];
    assert multiset(sorted) - multiset(sorted[..m]) == multiset(sorted[m..]);
    forall s, x | s in sorted[..m] && x in multiset(sorted) - multiset(sorted[..m])
      ensures Precedes(k, s, x)
    {
      var i :| 0 <= i < m && sorted[i] == s;
      assert x in sorted[m..];
      var j :| 0 <= j < |sorted[m..]| && sorted[m..][j] == x;
      assert sorted[m + j] == x;
    }
  }

  /** The shown countries are the best ones: every kept country left out
      ranks at or after every shown one. */
  lemma AnalyzeTakesTop(cs: seq<Country>, f: Filters)
    ensures var v := Analyze(cs, f); var kept := FilterCountries(cs, f);
      forall s, x :: s in v.shown && x in multiset(kept) - multiset(v.shown) ==> Precedes(f.sortBy, s, x)
  {
    var kept := FilterCountries(cs, f);
    var sorted := Sort(f.sortBy, kept);
    SortPermutes(f.sortBy, kept);
    var m := if f.limit < |sorted| then f.limit else |sorted|;
    assert Analyze(cs, f).shown == sorted[..m];
    SortedPrefixFirst(f.sortBy, sorted, m);
  }

  /** Truncation keeps stability: for every key class, the shown members
      are the first ones of that class in filter order. */
  lemma AnalyzeStable(cs: seq<Country>, f: Filters, y: Country)
    ensures Ties(f.sortBy, Analyze(cs, f).shown, y) <= Ties(f.sortBy, FilterCountries(cs, f), y)
  {
    var kept := FilterCountries(cs, f);
    var sorted := Sort(f.sortBy, kept);
    var m := if f.limit < |sorted| then f.limit else |sorted|;
    assert sorted == sorted[..m] + sorted[m..];
    TiesAppend(f.sortBy, sorted[..m], sorted[m..], y);
    SortStable(f.sortBy, kept, y);
  }

  /** The overview counts and sums exactly the shown (truncated) list;
      every shown country has at least the minimum population, and when
      nothing is cut off the totals are those of all kept countries. */
  lemma AnalyzeOverview(cs: seq<Country>, f: Filters)
    ensures var v := Analyze(cs, f); var kept := FilterCountries(cs, f);
      && v.overview.count == |v.shown|
      && v.overview.totalPopulation == SumPopulation(v.shown)
      && v.overview.totalArea == SumArea(v.shown)
      && v.overview.totalPopulation >= v.overview.count * f.minPopulation
      && (f.limit >= |kept| ==>
            v.overview.totalPopulation == SumPopulation(kept) && v.overview.totalArea == SumArea(kept))
  {
    var v := Analyze(cs, f);
    AnalyzeSelects(cs, f);
    SumAtLeast(v.shown, f.minPopulation);
    SortPermutes(f.sortBy, FilterCountries(cs, f));
  }

  lemma {:induction false} FilterPrepend(c: Country, rest: seq<Country>, f: Filters)
    ensures FilterCountries([c] + rest, f) == (if Kept(c, f) then [c] else []) + FilterCountries(rest, f)
  {
    assert ([c] + rest)[0] == c && ([c] + rest)[1..] == rest;
  }

  lemma SampleAsiaKeptTail()
    ensures FilterCountries([Nigeria, Australia, Canada, Japan, France], Filters("Asia", 0, 50, ByPopulation)) == [Japan]
  {
    var f := Filters("Asia", 0, 50, ByPopulation);
    assert FilterCountries([France], f) == [] by { FilterPrepend(France, [], f); }
    assert FilterCountries([Japan, France], f) == [Japan] by { FilterPrepend(Japan, [France], f); }
    assert FilterCountries([Canada, Japan, France], f) == [Japan] by { FilterPrepend(Canada, [Japan, France], f); }
    assert FilterCountries([Australia, Canada, Japan, France], f) == [Japan] by {
      FilterPrepend(Australia, [Canada, Japan, France], f);
    }
    FilterPrepend(Nigeria, [Australia, Canada, Japan, France], f);
  }

  lemma SampleAsiaKeptMiddle()
    ensures FilterCountries([China, Brazil, Germany, Nigeria, Australia, Canada, Japan, France],
                            Filters("Asia", 0, 50, ByPopulation)) == [China, Japan]
  {
    var f := Filters("Asia", 0, 50, ByPopulation);
    var s5 := [Nigeria, Australia, Canada, Japan, France];
    var s6 := [Germany] + s5;
    var s7 := [Brazil] + s6;
    SampleAsiaKeptTail();
    assert FilterCountries(s6, f) == [Japan] by { FilterPrepend(Germany, s5, f); }
    assert FilterCountries(s7, f) == [Japan] by { FilterPrepend(Brazil, s6, f); }
    FilterPrepend(China, s7, f);
    assert [China] + s7 == [China, Brazil, Germany, Nigeria, Australia, Canada, Japan, France];
  }

  lemma SampleAsiaKept()
    ensures FilterCountries(SampleData(), Filters("Asia", 0, 50, ByPopulation)) == [India, China, Japan]
  {
    var f := Filters("Asia", 0, 50, ByPopulation);
    var s8 := [China, Brazil, Germany, Nigeria, Australia, Canada, Japan, France];
    var s9 := [India] + s8;
    SampleAsiaKeptMiddle();
    assert FilterCountries(s9, f) == [India, China, Japan] by { FilterPrepend(India, s8, f); }
    FilterPrepend(UnitedStates, s9, f);
    assert SampleData() == [UnitedStates] + s9;
  }

  /** On the sample list, the Asia filter sorted by population shows
      China, India and Japan, in that order. */
  lemma SampleAsiaByPopulation()
    ensures Analyze(SampleData(), Filters("Asia", 0, 50, ByPopulation)).shown == [China, India, Japan]
  {
    SampleAsiaKept();
    SampleAsiaSorted();
  }

  lemma SampleAsiaSorted()
    ensures Sort(ByPopulation, [India, China, Japan]) == [China, India, Japan]
  {
    var k := ByPopulation;
    assert [India, China, Japan][..2] == [India, China] && [India, China][..1] == [India] && [India][..0] == [];
    assert Sort(k, [India]) == [India];
    assert Sort(k, [India, China]) == Insert(k, China, [India]) == [China, India];
    assert Insert(k, Japan, [China, India]) == [China] + Insert(k, Japan, [India]);
  }

  // ---------------------------------------------------------------------
  // The page
  // ---------------------------------------------------------------------

  datatype Dashboard = Dashboard(fetched: Fetched, view: View, regions: seq<RegionStats>, pie: Option<seq<Slice>>)

  /** One run of the dashboard's `main`: fetch, analyse, roll the FULL
      fetched list up by region, and draw the region pie for the shown list
      only when more than one country is shown. */
  function DashboardPage(net: Endpoint -> Reply, f: Filters): (d: Dashboard)
    ensures d.fetched == FetchAll(net) && d.view == Analyze(d.fetched.data, f)
    ensures TotalCount(d.regions) == |d.fetched.data|
    ensures TotalPopulation(d.regions) == SumPopulation(d.fetched.data)
    ensures TotalArea(d.regions) == SumArea(d.fetched.data)
    ensures d.regions == Rollup(d.fetched.data)
    ensures d.pie.Some? <==> |d.view.shown| > 1
    ensures d.pie.Some? ==> d.pie == RegionPie(d.view.shown) && SliceTotal(d.pie.value) == |d.view.shown|
  {
    var fetched := FetchAll(net);
    var view := Analyze(fetched.data, f);
    RollupTotals(fetched.data);
    Dashboard(fetched, view, Rollup(fetched.data), if |view.shown| > 1 then RegionPie(view.shown) else None)
  }
}

=== FILE: chatbot.dfy ===
/** The Country Chatbot page: the country lookup and its normalised record,
    the prompt template, the Gemini call with its three outcomes, and the
    chat transcript kept across reruns of the page. */
module CountryChatbot {
  import opened Wrappers
  import opened Text
  import opened Records

  // ---------------------------------------------------------------------
  // Lookup and normalisation
  // ---------------------------------------------------------------------

  /** The fixed shape `get_country_data` builds. `name` and `officialName`
      have no default in the source and stay absent when the API lacks them. */
  datatype CountryInfo = CountryInfo(
    name: Option<string>,
    officialName: Option<string>,
    capital: string,
    region: string,
    subregion: string,
    population: nat,
    area: nat,
    languages: seq<string>,
    currencies: seq<string>,
    flag: string)

  /** The record an API object is turned into. A present but empty capital
      list makes `[0]` raise, which the lookup's handler turns into `None`. */
  function Normalize(c: Country): (r: Option<CountryInfo>)
    ensures r.None? <==> c.capital.Some? && |c.capital.value| == 0
  {
    if c.capital.Some? && |c.capital.value| == 0 then None
    else
      Some(CountryInfo(
        if c.name.Some? then c.name.value.common else None,
        if c.name.Some? then c.name.value.official else None,
        if c.capital.Some? then c.capital.value[0] else "Unknown",
        c.region.GetOr("Unknown"),
        c.subregion.GetOr("Unknown"),
        PopulationOf(c),
        AreaOf(c),
        Values(c.languages.GetOr([])),
        Keys(c.currencies.GetOr([])),
        c.flag.GetOr("")))
  }

  /** Every field that is present is carried over unchanged: the first
      capital, the region texts, the numbers, the language names and
      currency codes in object order, and the flag emoji. */
  lemma NormalizeKeepsPresent(c: Country)
    requires c.capital.None? || |c.capital.value| > 0
    ensures var r := Normalize(c).value;
      && (c.name.Some? ==> r.name == c.name.value.common && r.officialName == c.name.value.official)
      && (c.capital.Some? ==> r.capital == c.capital.value[0])
      && (c.region.Some? ==> r.region == c.region.value)
      && (c.subregion.Some? ==> r.subregion == c.subregion.value)
      && (c.population.Some? ==> r.population == c.population.value)
      && (c.area.Some? ==> r.area == c.area.value)
      && (c.languages.Some? ==>
            |r.languages| == |c.languages.value|
            && forall i :: 0 <= i < |r.languages| ==> r.languages[i] == c.languages.value[i].value)
      && (c.currencies.Some? ==>
            |r.currencies| == |c.currencies.value|
            && forall i :: 0 <= i < |r.currencies| ==> r.currencies[i] == c.currencies.value[i].key)
      && (c.flag.Some? ==> r.flag == c.flag.value)
  {
  }

  /** Every missing field gets the source's default: capital, region and
      subregion "Unknown", population and area 0, no languages or
      currencies, an empty flag, and no names. The object with no keys at
      all normalises to exactly these placeholders. */
  lemma NormalizePlaceholders(c: Country)
    requires c.capital.None? || |c.capital.value| > 0
    ensures var r := Normalize(c).value;
      && (c.name.None? ==> r.name.None? && r.officialName.None?)
      && (c.capital.None? ==> r.capital == "Unknown")
      && (c.region.None? ==> r.region == "Unknown")
      && (c.subregion.None? ==> r.subregion == "Unknown")
      && (c.population.None? ==> r.population == 0)
      && (c.area.None? ==> r.area == 0)
      && (c.languages.None? ==> r.languages == [])
      && (c.currencies.None? ==> r.currencies == [])
      && (c.flag.None? ==> r.flag == "")
    ensures Normalize(Country(None, None, None, None, None, None, None, None, None))
         == Some(CountryInfo(None, None, "Unknown", "Unknown", "Unknown", 0, 0, [], [], ""))
  {
  }

  /** `get_country_data`: an empty name is answered without a request; a
      failed request, a non-200 status or an empty array give `None`;
      otherwise the first match is normalised. */
  function FetchCountryData(query: string, net: Endpoint -> Reply): (l: Lookup<CountryInfo>)
    ensures query == "" ==> l == Lookup(None, [])
    ensures query != "" ==> l.requested == [NameSearch(query)]
    ensures l.found.Some? <==>
              query != "" && HasMatches(net(NameSearch(query)))
              && Normalize(net(NameSearch(query)).body[0]).Some?
    ensures l.found.Some? ==> l.found == Normalize(net(NameSearch(query)).body[0])
  {
    if query == "" then Lookup(None, [])
    else
      var reply := net(NameSearch(query));
      if HasMatches(reply) then Lookup(Normalize(reply.body[0]), [NameSearch(query)])
      else Lookup(None, [NameSearch(query)])
  }

  /** The worked example: France with population 67391582, capital
      ["Paris"] and languages {fra: French}. */
  lemma FranceExample(net: Endpoint -> Reply)
    requires net(NameSearch("France")) == Response(200, [Country(
      Some(Names(Some("France"), Some("French Republic"))), Some(["Paris"]), Some("Europe"),
      Some("Western Europe"), Some(67391582), Some(551695), Some([Entry("fra", "French")]),
      Some([Entry("EUR", "Euro")]), Some("\U{1F1EB}\U{1F1F7}"))])
    ensures var info := FetchCountryData("France", net).found.value;
      info.name == Some("France") && info.capital == "Paris" && info.population == 67391582
      && info.languages == ["French"] && info.currencies == ["EUR"]
  {
  }

  // ---------------------------------------------------------------------
  // Prompt
  // ---------------------------------------------------------------------

  datatype Role = User | Assistant
  datatype ChatTurn = ChatTurn(role: Role, content: string)

  /** `role.upper()` of the stored role names "user" and "assistant". */
  function RoleLabel(r: Role): string {
    match r
    case User => "USER"
    case Assistant => "ASSISTANT"
  }

  function HistoryLine(t: ChatTurn): string {
    RoleLabel(t.role) + ": " + t.content + "\n"
  }

  /** The conversation transcript, one `ROLE: content` line per turn. */
  function HistoryBlock(h: seq<ChatTurn>): (r: string)
    ensures r == "" <==> |h| == 0
  {
    if |h| == 0 then "" else HistoryLine(h[0]) + HistoryBlock(h[1..])
  }

  /** The transcript is chronological: earlier turns come first. */
  lemma {:induction false} HistoryBlockAppend(a: seq<ChatTurn>, b: seq<ChatTurn>)
    ensures HistoryBlock(a + b) == HistoryBlock(a) + HistoryBlock(b)
  {
    if |a| == 0 {
      assert a + b == b;
    } else {
      assert (a + b)[1..] == a[1..] + b;
      HistoryBlockAppend(a[1..], b);
    }
  }

  function CountChar(s: string, c: char): nat {
    if |s| == 0 then 0 else (if s[0] == c then 1 else 0) + CountChar(s[1..], c)
  }

  lemma {:induction false} CountCharAppend(a: string, b: string, c: char)
    ensures CountChar(a + b, c) == CountChar(a, c) + CountChar(b, c)
  {
    if |a| == 0 {
      assert a + b == b;
    } else {
      assert (a + b)[1..] == a[1..] + b;
      CountCharAppend(a[1..], b, c);
    }
  }

  lemma {:induction false} NoSuchChar(s: string, c: char)
    requires forall i :: 0 <= i < |s| ==> s[i] != c
    ensures CountChar(s, c) == 0
  {
    if |s| > 0 {
      NoSuchChar(s[1..], c);
    }
  }

  function NewlinesInContents(h: seq<ChatTurn>): nat {
    if |h| == 0 then 0 else CountChar(h[0].content, '\n') + NewlinesInContents(h[1..])
  }

  /** Each turn ends in exactly one line break of its own: the transcript
      has one line per turn plus the line breaks inside the messages. */
  lemma {:induction false} HistoryBlockLines(h: seq<ChatTurn>)
    ensures CountChar(HistoryBlock(h), '\n') == |h| + NewlinesInContents(h)
  {
    if |h| > 0 {
      HistoryBlockLines(h[1..]);
      var t := h[0];
      CountCharAppend(RoleLabel(t.role) + ": " + t.content, "\n", '\n');
      CountCharAppend(RoleLabel(t.role) + ": ", t.content, '\n');
      CountCharAppend(RoleLabel(t.role), ": ", '\n');
      CountCharAppend(HistoryLine(t), HistoryBlock(h[1..]), '\n');
      NoSuchChar(RoleLabel(t.role), '\n');
      NoSuchChar(": ", '\n');
      assert CountChar("\n", '\n') == 1;
    }
  }

  /** An f-string of a value that may be `None`. */
  function Show(o: Option<string>): string {
    match o
    case None => "None"
    case Some(s) => s
  }

  const NoCountryData := "No country data was provided."

  /** The labels of the country block, in their fixed order. */
  const FieldLabels: seq<string> :=
    ["Name", "Official Name", "Capital", "Region", "Subregion", "Population", "Area",
     "Languages", "Currencies", "Flag"]

  /** The rendered value of each field, parallel to `FieldLabels`: a
      missing name shows as `None`, the area carries its unit, the lists are
      joined with ", ". */
  function FieldValues(d: CountryInfo): (vs: seq<string>)
    ensures |vs| == |FieldLabels|
  {
    [Show(d.name), Show(d.officialName), d.capital, d.region, d.subregion,
     NatToString(d.population), NatToString(d.area) + " km\U{B2}",
     Join(d.languages, ", "), Join(d.currencies, ", "), d.flag]
  }

  function FieldLine(field: string, value: string): string {
    "- " + field + ": " + value + "\n"
  }

  /** One `- label: value` line per field, in order. */
  function FieldLines(labels: seq<string>, values: seq<string>): string
    requires |labels| == |values|
  {
    if |labels| == 0 then "" else FieldLine(labels[0], values[0]) + FieldLines(labels[1..], values[1..])
  }

  /** The structured country block of `build_prompt`. */
  function InfoBlock(c: Option<CountryInfo>): string {
    match c
    case None => NoCountryData
    case Some(d) => "\nCountry data:\n" + FieldLines(FieldLabels, FieldValues(d))
  }

  lemma {:induction false} FieldLinesAppend(l1: seq<string>, v1: seq<string>, l2: seq<string>, v2: seq<string>)
    requires |l1| == |v1| && |l2| == |v2|
    ensures FieldLines(l1 + l2, v1 + v2) == FieldLines(l1, v1) + FieldLines(l2, v2)
  {
    if |l1| == 0 {
      assert l1 + l2 == l2 && v1 + v2 == v2;
    } else {
      assert (l1 + l2)[1..] == l1[1..] + l2 && (v1 + v2)[1..] == v1[1..] + v2;
      FieldLinesAppend(l1[1..], v1[1..], l2, v2);
    }
  }

  lemma FieldLinesSplit(ls: seq<string>, vs: seq<string>, i: nat)
    requires |ls| == |vs| && i < |ls|
    ensures FieldLines(ls, vs)
         == FieldLines(ls[..i], vs[..i]) + FieldLine(ls[i], vs[i]) + FieldLines(ls[i + 1..], vs[i + 1..])
  {
    FieldLinesAt(ls, vs, i);
    AppendAssoc(FieldLines(ls[..i], vs[..i]), FieldLine(ls[i], vs[i]), FieldLines(ls[i + 1..], vs[i + 1..]));
  }

  lemma FieldLinesAt(ls: seq<string>, vs: seq<string>, i: nat)
    requires |ls| == |vs| && i < |ls|
    ensures FieldLines(ls, vs)
         == FieldLines(ls[..i], vs[..i]) + (FieldLine(ls[i], vs[i]) + FieldLines(ls[i + 1..], vs[i + 1..]))
  {
    assert ls[..i] + ls[i..] == ls && vs[..i] + vs[i..] == vs;
    FieldLinesAppend(ls[..i], vs[..i], ls[i..], vs[i..]);
    assert ls[i..][0] == ls[i] && vs[i..][0] == vs[i];
    assert ls[i..][1..] == ls[i + 1..] && vs[i..][1..] == vs[i + 1..];
  }

  lemma AppendAssoc(a: string, b: string, c: string)
    ensures a + (b + c) == a + b + c
  {
  }

  /** With country data, field `i` is the `i`-th line after the header, so
      the lines run Name, Official Name, Capital, Region, Subregion,
      Population, Area, Languages, Currencies, Flag; without, the block is
      the one fixed sentence, which no rendering of data can equal. */
  lemma InfoBlockLayout(d: CountryInfo, i: nat)
    requires i < |FieldLabels|
    ensures InfoBlock(None) == "No country data was provided."
    ensures InfoBlock(Some(d)) != InfoBlock(None)
    ensures var before := "\nCountry data:\n" + FieldLines(FieldLabels[..i], FieldValues(d)[..i]);
      InfoBlock(Some(d)) == before + FieldLine(FieldLabels[i], FieldValues(d)[i])
                            + FieldLines(FieldLabels[i + 1..], FieldValues(d)[i + 1..])
  {
    HeaderedSplit("\nCountry data:\n", FieldLabels, FieldValues(d), i);
    InfoBlockDiffers(d);
  }

  lemma HeaderedSplit(header: string, ls: seq<string>, vs: seq<string>, i: nat)
    requires |ls| == |vs| && i < |ls|
    ensures header + FieldLines(ls, vs)
         == header + FieldLines(ls[..i], vs[..i]) + FieldLine(ls[i], vs[i]) + FieldLines(ls[i + 1..], vs[i + 1..])
  {
    var front, line, back := FieldLines(ls[..i], vs[..i]), FieldLine(ls[i], vs[i]), FieldLines(ls[i + 1..], vs[i + 1..]);
    FieldLinesSplit(ls, vs, i);
    AppendAssoc(header, front + line, back);
    AppendAssoc(header, front, line);
  }

  lemma InfoBlockDiffers(d: CountryInfo)
    ensures InfoBlock(Some(d)) != InfoBlock(None)
  {
    var header := "\nCountry data:\n";
    var body := FieldLines(FieldLabels, FieldValues(d));
    assert (header + body)[0] == '\n';
    assert NoCountryData[0] == 'N';
  }

  const Instructions :=
    "You are a helpful assistant that answers questions about countries using the structured "
    + "data I provide from the REST Countries API. "
    + "If something is not in the data, you may answer from general knowledge, but say that it "
    + "is not directly from the API. "
    + "Keep answers clear and friendly. "

  const ConversationHeading := "\n\nConversation so far:\n"
  const CountryHeading := "\n\nStructured REST Countries API info:\n"
  const QuestionHeading := "\n\nUser's latest question:\n"
  const Closing := "\n\nNow respond as the assistant. Be concise but informative.\n"

  /** The prompt template around its three variable parts: the
      transcript `h`, the country block `info` and the question `q`. */
  function Template(h: string, info: string, q: string): string {
    "\n" + Instructions + ConversationHeading + h + CountryHeading + info + QuestionHeading + q + Closing
  }

  /** `build_prompt`. */
  function BuildPrompt(history: seq<ChatTurn>, country: Option<CountryInfo>, question: string): string {
    Template(HistoryBlock(history), InfoBlock(country), question)
  }

  /** The layout of any text built as `nl + a + b + c + d + e + f + g + z`:
      each of `a`, `c`, `e`, `g` sits at the offset the pieces before it
      add up to. */
  lemma SectionOffsets(nl: string, a: string, b: string, c: string, d: string, e: string, f: string,
                       g: string, z: string)
    ensures var p := nl + a + b + c + d + e + f + g + z;
      && OccursAt(p, a, |nl|)
      && OccursAt(p, c, |nl| + |a| + |b|)
      && OccursAt(p, e, |nl| + |a| + |b| + |c| + |d|)
      && OccursAt(p, g, |nl| + |a| + |b| + |c| + |d| + |e| + |f|)
      && |p| == |nl| + |a| + |b| + |c| + |d| + |e| + |f| + |g| + |z|
  {
    var p := nl + a + b + c + d + e + f + g + z;
    assert p[..|nl| + |a|] == nl + a;
    assert p[..|nl| + |a| + |b| + |c|] == nl + a + b + c;
    assert p[..|nl| + |a| + |b| + |c| + |d| + |e|] == nl + a + b + c + d + e;
    assert p[..|nl| + |a| + |b| + |c| + |d| + |e| + |f| + |g|] == nl + a + b + c + d + e + f + g;
  }

  /** Where the conversation, country info and question start in a prompt. */
  function HistoryAt(): nat {
    1 + |Instructions| + |ConversationHeading|
  }

  function InfoAt(history: seq<ChatTurn>): nat {
    HistoryAt() + |HistoryBlock(history)| + |CountryHeading|
  }

  function QuestionAt(history: seq<ChatTurn>, country: Option<CountryInfo>): nat {
    InfoAt(history) + |InfoBlock(country)| + |QuestionHeading|
  }

  /** Where each variable part sits in the template, for any parts. */
  lemma TemplateLayout(h: string, info: string, q: string)
    ensures OccursAt(Template(h, info, q), Instructions, 1)
    ensures OccursAt(Template(h, info, q), h, HistoryAt())
    ensures OccursAt(Template(h, info, q), info, HistoryAt() + |h| + |CountryHeading|)
    ensures OccursAt(Template(h, info, q), q, HistoryAt() + |h| + |CountryHeading| + |info| + |QuestionHeading|)
    ensures |Template(h, info, q)|
         == HistoryAt() + |h| + |CountryHeading| + |info| + |QuestionHeading| + |q| + |Closing|
  {
    TemplateHead(h, info, q);
    TemplateTail(h, info, q);
  }

  lemma TemplateHead(h: string, info: string, q: string)
    ensures OccursAt(Template(h, info, q), Instructions, 1)
    ensures OccursAt(Template(h, info, q), h, HistoryAt())
  {
    var nl, a, b, d, f, z := "\n", Instructions, ConversationHeading, CountryHeading, QuestionHeading, Closing;
    assert |nl| == 1;
    SectionOffsets(nl, a, b, h, d, info, f, q, z);
  }

  lemma TemplateTail(h: string, info: string, q: string)
    ensures OccursAt(Template(h, info, q), info, HistoryAt() + |h| + |CountryHeading|)
    ensures OccursAt(Template(h, info, q), q, HistoryAt() + |h| + |CountryHeading| + |info| + |QuestionHeading|)
    ensures |Template(h, info, q)|
         == HistoryAt() + |h| + |CountryHeading| + |info| + |QuestionHeading| + |q| + |Closing|
  {
    var nl, a, b, d, f, z := "\n", Instructions, ConversationHeading, CountryHeading, QuestionHeading, Closing;
    assert |nl| == 1;
    SectionOffsets(nl, a, b, h, d, info, f, q, z);
  }

  /** Each section of a prompt sits at its own offset. */
  lemma PromptSectionsAt(history: seq<ChatTurn>, country: Option<CountryInfo>, question: string)
    ensures OccursAt(BuildPrompt(history, country, question), Instructions, 1)
    ensures OccursAt(BuildPrompt(history, country, question), HistoryBlock(history), HistoryAt())
    ensures OccursAt(BuildPrompt(history, country, question), InfoBlock(country), InfoAt(history))
    ensures OccursAt(BuildPrompt(history, country, question), question, QuestionAt(history, country))
    ensures |BuildPrompt(history, country, question)| == QuestionAt(history, country) + |question| + |Closing|
  {
    PromptHead(history, country, question);
    PromptTail(history, country, question);
  }

  lemma PromptHead(history: seq<ChatTurn>, country: Option<CountryInfo>, question: string)
    ensures OccursAt(BuildPrompt(history, country, question), Instructions, 1)
    ensures OccursAt(BuildPrompt(history, country, question), HistoryBlock(history), HistoryAt())
  {
    TemplateHead(HistoryBlock(history), InfoBlock(country), question);
  }

  lemma PromptTail(history: seq<ChatTurn>, country: Option<CountryInfo>, question: string)
    ensures OccursAt(BuildPrompt(history, country, question), InfoBlock(country), InfoAt(history))
    ensures OccursAt(BuildPrompt(history, country, question), question, QuestionAt(history, country))
    ensures |BuildPrompt(history, country, question)| == QuestionAt(history, country) + |question| + |Closing|
  {
    PromptInfo(history, country, question);
    PromptQuestion(history, country, question);
  }

  lemma PromptInfo(history: seq<ChatTurn>, country: Option<CountryInfo>, question: string)
    ensures OccursAt(BuildPrompt(history, country, question), InfoBlock(country), InfoAt(history))
  {
    var h, info := HistoryBlock(history), InfoBlock(country);
    assert BuildPrompt(history, country, question) == Template(h, info, question);
    assert InfoAt(history) == HistoryAt() + |h| + |CountryHeading|;
    TemplateInfo(h, info, question);
  }

  lemma TemplateInfo(h: string, info: string, q: string)
    ensures OccursAt(Template(h, info, q), info, HistoryAt() + |h| + |CountryHeading|)
  {
    var nl, a, b, d, f, z := "\n", Instructions, ConversationHeading, CountryHeading, QuestionHeading, Closing;
    assert |nl| == 1;
    SectionOffsets(nl, a, b, h, d, info, f, q, z);
  }

  lemma PromptQuestion(history: seq<ChatTurn>, country: Option<CountryInfo>, question: string)
    ensures OccursAt(BuildPrompt(history, country, question), question, QuestionAt(history, country))
    ensures |BuildPrompt(history, country, question)| == QuestionAt(history, country) + |question| + |Closing|
  {
    TemplateTail(HistoryBlock(history), InfoBlock(country), question);
  }

  /** The four sections sit in the order instructions, conversation,
      country info, latest question, each at its own offset and none
      overlapping the next; only the closing line follows the question. */
  lemma PromptSectionOrder(history: seq<ChatTurn>, country: Option<CountryInfo>, question: string)
    ensures OccursAt(BuildPrompt(history, country, question), Instructions, 1)
    ensures 1 + |Instructions| < HistoryAt()
    ensures OccursAt(BuildPrompt(history, country, question), HistoryBlock(history), HistoryAt())
    ensures HistoryAt() + |HistoryBlock(history)| < InfoAt(history)
    ensures OccursAt(BuildPrompt(history, country, question), InfoBlock(country), InfoAt(history))
    ensures InfoAt(history) + |InfoBlock(country)| < QuestionAt(history, country)
    ensures OccursAt(BuildPrompt(history, country, question), question, QuestionAt(history, country))
    ensures |BuildPrompt(history, country, question)| == QuestionAt(history, country) + |question| + |Closing|
    ensures BuildPrompt(history, country, question)[QuestionAt(history, country) + |question|..] == Closing
  {
    PromptSectionsAt(history, country, question);
    PromptClosing(history, country, question);
  }

  /** The closing line is the last thing in a prompt. */
  lemma PromptClosing(history: seq<ChatTurn>, country: Option<CountryInfo>, question: string)
    ensures var p, at := BuildPrompt(history, country, question), QuestionAt(history, country) + |question|;
      at <= |p| && p[at..] == Closing
  {
    var h, info := HistoryBlock(history), InfoBlock(country);
    var front := "\n" + Instructions + ConversationHeading + h + CountryHeading + info + QuestionHeading + question;
    assert BuildPrompt(history, country, question) == front + Closing;
    QuestionOffset(history, country);
    SuffixAfter(front, Closing, BuildPrompt(history, country, question), QuestionAt(history, country) + |question|);
  }

  lemma SuffixAfter(front: string, z: string, p: string, at: int)
    requires p == front + z && at == |front|
    ensures at <= |p| && p[at..] == z
  {
    assert (front + z)[|front|..] == z;
  }

  lemma QuestionOffset(history: seq<ChatTurn>, country: Option<CountryInfo>)
    ensures QuestionAt(history, country)
         == HistoryAt() + |HistoryBlock(history)| + |CountryHeading| + |InfoBlock(country)| + |QuestionHeading|
  {
  }

  /** What the model would answer if asked: a text, or an exception with
      its message. */
  datatype GenOutcome = Generated(text: string) | Failed(message: string)

  /** `ask_gemini`'s three results. `Unavailable` is returned without
      asking the model. */
  datatype ChatReply = Unavailable | Apology | Answer(text: string)

  const UnavailableText := "Gemini is not available right now. Please contact the app owner."
  const ApologyText := "Sorry, something went wrong while contacting the AI. Please try again in a moment."

  function AskGemini(ready: bool, outcome: GenOutcome): (r: ChatReply)
    ensures r.Unavailable? <==> !ready
    ensures r.Apology? <==> ready && outcome.Failed?
    ensures r.Answer? <==> ready && outcome.Generated?
    ensures r.Answer? ==> r.text == Strip(outcome.text)
    ensures r.Answer? ==> |r.text| <= |outcome.text|
    ensures r.Answer? && |r.text| > 0 ==> !IsSpace(r.text[0]) && !IsSpace(r.text[|r.text| - 1])
    ensures r.Answer? ==> Strip(r.text) == r.text
  {
    if !ready then Unavailable
    else match outcome
      case Failed(_) => Apology
      case Generated(t) => StripIdempotent(t); Answer(Strip(t))
  }

  /** The text shown and stored for a reply. */
  function ReplyText(r: ChatReply): string {
    match r
    case Unavailable => UnavailableText
    case Apology => ApologyText
    case Answer(t) => t
  }

  // ---------------------------------------------------------------------
  // The transcript
  // ---------------------------------------------------------------------

  /** The transcript when the session starts. */
  const InitialHistory: seq<ChatTurn> := []

  /** The transcript after one rerun and the prompt built on it, if any. */
  datatype Exchange = Exchange(history: seq<ChatTurn>, prompt: Option<string>)

  /** One rerun of the chat input: an empty input changes nothing; any
      other appends the user turn, builds the prompt from the transcript
      that already holds it, and appends the assistant's reply. */
  function Submit(history: seq<ChatTurn>, message: string, country: Option<CountryInfo>,
                  ready: bool, outcome: GenOutcome): (e: Exchange)
    ensures message == "" ==> e == Exchange(history, None)
    ensures message != "" ==>
      && |e.history| == |history| + 2
      && e.history[..|history|] == history
      && e.history[|history|] == ChatTurn(User, message)
      && e.history[|history| + 1] == ChatTurn(Assistant, ReplyText(AskGemini(ready, outcome)))
      && e.prompt == Some(BuildPrompt(e.history[..|history| + 1], country, message))
  {
    if message == "" then Exchange(history, None)
    else
      var withQuestion := history + [ChatTurn(User, message)];
      var reply := ReplyText(AskGemini(ready, outcome));
      assert (withQuestion + [ChatTurn(Assistant, reply)])[..|history| + 1] == withQuestion;
      Exchange(withQuestion + [ChatTurn(Assistant, reply)], Some(BuildPrompt(withQuestion, country, message)))
  }

  /** In the prompt, the conversation ends with the new question's own
      line. */
  lemma PromptEndsWithQuestionLine(history: seq<ChatTurn>, message: string)
    requires message != ""
    ensures HistoryBlock(history + [ChatTurn(User, message)])
         == HistoryBlock(history) + "USER: " + message + "\n"
  {
    var turn := ChatTurn(User, message);
    HistoryBlockAppend(history, [turn]);
    assert HistoryBlock([turn]) == HistoryLine(turn) by {
      assert [turn][1..] == [];
    }
    assert HistoryLine(turn) == "USER: " + message + "\n" by {
      assert "USER" + ": " == "USER: ";
    }
    var before := HistoryBlock(history);
    AppendAssoc(before, "USER: " + message, "\n");
    AppendAssoc(before, "USER: ", message);
  }

  /** One chat input of a session: the text submitted, the focus country
      as loaded on that rerun, and what the model would answer. */
  datatype Submission = Submission(message: string, country: Option<CountryInfo>, outcome: GenOutcome)

  /** The transcript after a whole session. */
  function Replay(subs: seq<Submission>, ready: bool): seq<ChatTurn> {
    if |subs| == 0 then InitialHistory
    else
      var last := subs[|subs| - 1];
      Submit(Replay(subs[..|subs| - 1], ready), last.message, last.country, ready, last.outcome).history
  }

  /** The non-empty messages of a session, in order. */
  function Asked(subs: seq<Submission>): seq<string> {
    if |subs| == 0 then []
    else Asked(subs[..|subs| - 1]) + (if subs[|subs| - 1].message == "" then [] else [subs[|subs| - 1].message])
  }

  /** Two turns per message, user then assistant, the user turns being
      the messages in order. */
  ghost predicate Alternates(h: seq<ChatTurn>, asked: seq<string>) {
    && |h| == 2 * |asked|
    && (forall i :: 0 <= i < |h| ==> h[i].role == if i % 2 == 0 then User else Assistant)
    && (forall j :: 0 <= j < |asked| ==> h[2 * j].content == asked[j])
  }

  lemma SubmitAlternates(h: seq<ChatTurn>, asked: seq<string>, message: string,
                         country: Option<CountryInfo>, ready: bool, outcome: GenOutcome)
    requires Alternates(h, asked) && message != ""
    ensures Alternates(Submit(h, message, country, ready, outcome).history, asked + [message])
  {
    var reply := ReplyText(AskGemini(ready, outcome));
    var r := h + [ChatTurn(User, message), ChatTurn(Assistant, reply)];
    assert Submit(h, message, country, ready, outcome).history == r by {
      assert h + [ChatTurn(User, message)] + [ChatTurn(Assistant, reply)] == r;
    }
    AppendAlternates(h, asked, message, reply);
  }

  lemma AppendAlternates(h: seq<ChatTurn>, asked: seq<string>, message: string, reply: string)
    requires Alternates(h, asked)
    ensures Alternates(h + [ChatTurn(User, message), ChatTurn(Assistant, reply)], asked + [message])
  {
    var r := h + [ChatTurn(User, message), ChatTurn(Assistant, reply)];
    var asked' := asked + [message];
    forall i | 0 <= i < |r|
      ensures r[i].role == if i % 2 == 0 then User else Assistant
    {
      if i < |h| { assert r[i] == h[i]; }
    }
    forall j | 0 <= j < |asked'|
      ensures r[2 * j].content == asked'[j]
    {
      if j < |asked| { assert r[2 * j] == h[2 * j]; }
    }
  }

  /** After a session the transcript holds exactly two turns per non-empty
      message, alternating user and assistant, the user turns being the
      messages in the order they were sent. */
  lemma {:induction false} ReplayShape(subs: seq<Submission>, ready: bool)
    ensures |Replay(subs, ready)| == 2 * |Asked(subs)|
    ensures forall i :: 0 <= i < |Replay(subs, ready)| ==>
              Replay(subs, ready)[i].role == if i % 2 == 0 then User else Assistant
    ensures forall j :: 0 <= j < |Asked(subs)| ==> Replay(subs, ready)[2 * j].content == Asked(subs)[j]
  {
    ReplayAlternates(subs, ready);
  }

  lemma {:induction false} ReplayAlternates(subs: seq<Submission>, ready: bool)
    ensures Alternates(Replay(subs, ready), Asked(subs))
  {
    if |subs| > 0 {
      var init := subs[..|subs| - 1];
      var last := subs[|subs| - 1];
      ReplayAlternates(init, ready);
      if last.message != "" {
        SubmitAlternates(Replay(init, ready), Asked(init), last.message, last.country, ready, last.outcome);
      }
    }
  }

  /** Earlier turns are never changed: each rerun only extends the
      transcript. */
  lemma {:induction false} ReplayExtends(subs: seq<Submission>, ready: bool, n: nat)
    requires n <= |subs|
    ensures Replay(subs[..n], ready) <= Replay(subs, ready)
    decreases |subs|
  {
    if n < |subs| {
      var init := subs[..|subs| - 1];
      assert subs[..n] == init[..n];
      ReplayExtends(init, ready, n);
    } else {
      assert subs[..n] == subs;
    }
  }
}

=== FILE: insight.dfy ===
/** `init_gemini` of the AI analysis page: validate the API key found in
    the app's secrets, then try an ordered list of model names and keep
    the first one that answers a test prompt. */
module CountryInsight {
  import opened Wrappers
  import opened Text

  /** The model names tried, in order. */
  const ModelNames: seq<string> := [
    "gemini-1.5-flash-001",
    "gemini-1.5-flash-latest",
    "gemini-1.0-pro-001",
    "gemini-1.5-pro-latest"
  ]

  /** What the test prompt to one model gives: the response's text, or an
      exception (from creating the model, generating, or reading `.text`)
      with its message. */
  datatype Probe = Answered(text: string) | Raised(message: string)

  /** `if response.text:` — an answer counts only when its text is non-empty. */
  predicate Succeeds(p: Probe) {
    p.Answered? && p.text != ""
  }

  /** The sidebar messages the selection shows. */
  datatype Notice =
    | KeyMissing                          // no GEMINI_API_KEY in the secrets
    | InvalidKey                          // empty, or not starting with "AIza"
    | SetupError(detail: string)          // `configure` raised; first 100 characters
    | Trying(model: string)
    | Success(model: string)
    | NotFound(model: string)             // the message mentions 404
    | RateLimit(model: string)            // the message mentions 429
    | Failure(model: string, detail: string) // any other message; first 50 characters
    | AllFailed

  /** The warning for a probe that raised. The two status codes are looked
      for as substrings, 404 first. */
  function Classify(model: string, message: string): (n: Notice)
    ensures n.NotFound? <==> Contains(message, "404")
    ensures n.RateLimit? <==> !Contains(message, "404") && Contains(message, "429")
    ensures n.Failure? <==> !Contains(message, "404") && !Contains(message, "429")
    ensures n.Failure? ==> |n.detail| == (if |message| < 50 then |message| else 50) && n.detail <= message
    ensures n.NotFound? || n.RateLimit? || n.Failure?
    ensures n.model == model
  {
    if Contains(message, "404") then NotFound(model)
    else if Contains(message, "429") then RateLimit(model)
    else Failure(model, Take(message, 50))
  }

  /** The model chosen (if any), the names probed in order, and the
      notices shown on the way. */
  datatype Search = Search(model: Option<string>, probed: seq<string>, notices: seq<Notice>)

  /** The notices one probe adds after its `Trying` line: success, a
      classified warning, or nothing for an empty answer. */
  function ProbeNotices(model: string, p: Probe): (ns: seq<Notice>)
    ensures |ns| <= 1
    ensures ns == [] <==> p == Answered("")
    ensures Succeeds(p) ==> ns == [Success(model)]
    ensures p.Raised? ==> ns == [Classify(model, p.message)]
  {
    match p
    case Answered(text) => if text != "" then [Success(model)] else []
    case Raised(message) => [Classify(model, message)]
  }

  /** The `for` loop: probe each name in turn and stop at the first
      success. An empty answer and an exception both move on. */
  function FirstSuccess(names: seq<string>, probe: string -> Probe): (s: Search)
    ensures s.probed <= names
    ensures s.model.Some? ==>
              |s.probed| > 0 && s.model.value == s.probed[|s.probed| - 1] && Succeeds(probe(s.model.value))
    ensures s.model.None? ==> s.probed == names
    ensures forall j :: 0 <= j < |s.probed| && (s.model.None? || j < |s.probed| - 1) ==>
              !Succeeds(probe(s.probed[j]))
    decreases |names|
  {
    if |names| == 0 then Search(None, [], [])
    else
      var first := names[0];
      var here := [Trying(first)] + ProbeNotices(first, probe(first));
      if Succeeds(probe(first)) then Search(Some(first), [first], here)
      else
        var rest := FirstSuccess(names[1..], probe);
        Search(rest.model, [first] + rest.probed, here + rest.notices)
  }

  /** The chosen model is the first name, in list order, whose probe
      succeeds, and no name after it is probed. */
  lemma {:induction false} FirstSuccessIsFirst(names: seq<string>, probe: string -> Probe, k: nat)
    requires k < |names| && Succeeds(probe(names[k]))
    requires forall j :: 0 <= j < k ==> !Succeeds(probe(names[j]))
    ensures FirstSuccess(names, probe).model == Some(names[k])
    ensures FirstSuccess(names, probe).probed == names[..k + 1]
    decreases k
  {
    if k > 0 {
      assert !Succeeds(probe(names[0]));
      forall j | 0 <= j < k - 1
        ensures !Succeeds(probe(names[1..][j]))
      {
        assert names[1..][j] == names[j + 1];
      }
      FirstSuccessIsFirst(names[1..], probe, k - 1);
      var rest := FirstSuccess(names[1..], probe);
      assert FirstSuccess(names, probe).probed == [names[0]] + rest.probed;
      assert names[..k + 1] == [names[0]] + names[1..][..k];
    }
  }

  /** With no success every name is probed and none is chosen. */
  lemma {:induction false} NoSuccessProbesAll(names: seq<string>, probe: string -> Probe)
    requires forall j :: 0 <= j < |names| ==> !Succeeds(probe(names[j]))
    ensures FirstSuccess(names, probe).model.None?
    ensures FirstSuccess(names, probe).probed == names
    decreases |names|
  {
    if |names| > 0 {
      forall j | 0 <= j < |names| - 1
        ensures !Succeeds(probe(names[1..][j]))
      {
        assert names[1..][j] == names[j + 1];
      }
      NoSuccessProbesAll(names[1..], probe);
    }
  }

  /** Which model is chosen depends only on which probes succeed: the
      exception messages, and so the 404/429 classification, change only
      the notices. */
  lemma {:induction false} SelectionIgnoresMessages(names: seq<string>, p: string -> Probe, q: string -> Probe)
    requires forall j :: 0 <= j < |names| ==> (Succeeds(p(names[j])) <==> Succeeds(q(names[j])))
    ensures FirstSuccess(names, p).model == FirstSuccess(names, q).model
    ensures FirstSuccess(names, p).probed == FirstSuccess(names, q).probed
    decreases |names|
  {
    if |names| > 0 && !Succeeds(p(names[0])) {
      assert !Succeeds(q(names[0]));
      forall j | 0 <= j < |names| - 1
        ensures Succeeds(p(names[1..][j])) <==> Succeeds(q(names[1..][j]))
      {
        assert names[1..][j] == names[j + 1];
      }
      SelectionIgnoresMessages(names[1..], p, q);
    }
  }

  /** The names of the `Trying` notices, in order. */
  function TriedNames(ns: seq<Notice>): seq<string> {
    if |ns| == 0 then []
    else (if ns[0].Trying? then [ns[0].model] else []) + TriedNames(ns[1..])
  }

  lemma {:induction false} TriedNamesAppend(a: seq<Notice>, b: seq<Notice>)
    ensures TriedNames(a + b) == TriedNames(a) + TriedNames(b)
  {
    if |a| == 0 {
      assert a + b == b;
    } else {
      assert (a + b)[0] == a[0] && (a + b)[1..] == a[1..] + b;
      TriedNamesAppend(a[1..], b);
      var head := if a[0].Trying? then [a[0].model] else [];
      assert TriedNames(a + b) == head + (TriedNames(a[1..]) + TriedNames(b));
      assert head + (TriedNames(a[1..]) + TriedNames(b)) == head + TriedNames(a[1..]) + TriedNames(b);
    }
  }

  lemma {:induction false} ProbeNoticesNoTrying(model: string, p: Probe)
    ensures TriedNames(ProbeNotices(model, p)) == []
  {
    var ns := ProbeNotices(model, p);
    if |ns| > 0 {
      assert ns[1..] == [];
    }
  }

  /** Every probed name gets its `Trying` notice, in probe order, and no
      other name does. */
  lemma {:induction false} NoticesFollowProbes(names: seq<string>, probe: string -> Probe)
    ensures TriedNames(FirstSuccess(names, probe).notices) == FirstSuccess(names, probe).probed
    decreases |names|
  {
    if |names| > 0 {
      var first := names[0];
      var after := ProbeNotices(first, probe(first));
      TriedNamesAppend([Trying(first)], after);
      ProbeNoticesNoTrying(first, probe(first));
      assert TriedNames([Trying(first)]) == [first] by {
        assert [Trying(first)][1..] == [];
      }
      if !Succeeds(probe(first)) {
        var rest := FirstSuccess(names[1..], probe);
        TriedNamesAppend([Trying(first)] + after, rest.notices);
        NoticesFollowProbes(names[1..], probe);
      }
    }
  }

  /** `str.startswith("AIza")` after the emptiness test. */
  predicate WellFormedKey(key: string) {
    key != "" && StartsWith(key, "AIza")
  }

  /** `init_gemini`. `secret` is the GEMINI_API_KEY entry (absent or a
      string); `setup` is the message of an exception from `configure`, if
      it raises; `probe` gives each model's test result. */
  function InitGemini(secret: Option<string>, setup: Option<string>, probe: string -> Probe): (s: Search)
    ensures secret.None? ==> s == Search(None, [], [KeyMissing])
    ensures secret.Some? && !WellFormedKey(secret.value) ==> s == Search(None, [], [InvalidKey])
    ensures secret.Some? && WellFormedKey(secret.value) && setup.Some? ==>
              s == Search(None, [], [SetupError(Take(setup.value, 100))])
    ensures s.probed != [] <==> secret.Some? && WellFormedKey(secret.value) && setup.None?
    ensures s.model.Some? ==> secret.Some? && WellFormedKey(secret.value) && setup.None?
    ensures secret.Some? && WellFormedKey(secret.value) && setup.None? ==>
              && s.model == FirstSuccess(ModelNames, probe).model
              && s.probed == FirstSuccess(ModelNames, probe).probed
    ensures s.model.Some? ==> s.model.value in ModelNames && Succeeds(probe(s.model.value))
    ensures (&& secret.Some? && WellFormedKey(secret.value) && setup.None?
             && exists j :: 0 <= j < |ModelNames| && Succeeds(probe(ModelNames[j]))) ==> s.model.Some?
    ensures s.model.None? && s.probed != [] ==>
              s.probed == ModelNames && |s.notices| > 0 && s.notices[|s.notices| - 1] == AllFailed
  {
    match secret
    case None => Search(None, [], [KeyMissing])
    case Some(key) =>
      if !WellFormedKey(key) then Search(None, [], [InvalidKey])
      else if setup.Some? then Search(None, [], [SetupError(Take(setup.value, 100))])
      else
        var found := FirstSuccess(ModelNames, probe);
        if found.model.Some? then found
        else Search(None, found.probed, found.notices + [AllFailed])
  }

  /** A well-formed key with a working setup: when only the third model
      answers, the first two are probed and the fourth is not. */
  lemma ThirdModelExample(probe: string -> Probe)
    requires probe(ModelNames[0]) == Raised("404 models/gemini-1.5-flash-001 is not found")
    requires probe(ModelNames[1]) == Answered("")
    requires probe(ModelNames[2]) == Answered("Hello there, friend")
    ensures InitGemini(Some("AIzaExample"), None, probe).model == Some("gemini-1.0-pro-001")
    ensures InitGemini(Some("AIzaExample"), None, probe).probed == ModelNames[..3]
  {
    FirstSuccessIsFirst(ModelNames, probe, 2);
  }
}

=== FILE: insights.dfy ===
/** The travel-guide and comparison page: its own copy of the country
    lookup, the placeholder facts it hands to the model, the short-circuit
    when the model is not configured, and the two tabs' control flow. */
module CountryInsights {
  import opened Wrappers
  import opened Text
  import opened Records
  import CountryChatbot

  // ---------------------------------------------------------------------
  // Lookup
  // ---------------------------------------------------------------------

  /** `get_country_data`: the raw first match of a name search. Unlike the
      chatbot's lookup there is no guard for an empty name, and the object
      is returned as the API sent it. */
  function LookupRaw(name: string, net: Endpoint -> Reply): (l: Lookup<Country>)
    ensures l.requested == [NameSearch(name)]
    ensures l.found.Some? <==> HasMatches(net(NameSearch(name)))
    ensures l.found.Some? ==> l.found.value == net(NameSearch(name)).body[0]
  {
    var reply := net(NameSearch(name));
    Lookup(if HasMatches(reply) then Some(reply.body[0]) else None, [NameSearch(name)])
  }

  /** Both countries of a comparison with the requests made for them. */
  datatype Pair = Pair(first: Option<Country>, second: Option<Country>, requested: seq<Endpoint>)

  /** `get_country_comparison`: two independent lookups, first argument first. */
  function Comparison(a: string, b: string, net: Endpoint -> Reply): (p: Pair)
    ensures p.first == LookupRaw(a, net).found && p.second == LookupRaw(b, net).found
    ensures p.requested == [NameSearch(a), NameSearch(b)]
  {
    var la, lb := LookupRaw(a, net), LookupRaw(b, net);
    Pair(la.found, lb.found, la.requested + lb.requested)
  }

  /** The lookup does not depend on the argument's position: swapping the
      names swaps the pair. */
  lemma ComparisonSwap(a: string, b: string, net: Endpoint -> Reply)
    ensures Comparison(b, a, net).first == Comparison(a, b, net).second
    ensures Comparison(b, a, net).second == Comparison(a, b, net).first
  {
  }

  /** Where the two lookups part ways: this page asks the API even for an
      empty name, the chatbot never does. */
  lemma EmptyNameContrast(net: Endpoint -> Reply)
    ensures LookupRaw("", net).requested == [NameSearch("")]
    ensures CountryChatbot.FetchCountryData("", net).requested == []
  {
  }

  // ---------------------------------------------------------------------
  // Placeholder facts
  // ---------------------------------------------------------------------

  /** The values a prompt is filled with, after the page's defaults. */
  datatype Facts = Facts(
    name: string,
    capital: string,
    population: nat,
    area: nat,
    region: string,
    languages: seq<string>)

  /** `d.get('capital', ['Unknown'])[0] if d.get('capital') else 'Unknown'`:
      an absent key and an empty list both fall back. */
  function CapitalOf(c: Country): (s: string)
    ensures c.capital.Some? && |c.capital.value| > 0 ==> s == c.capital.value[0]
    ensures c.capital.None? || |c.capital.value| == 0 ==> s == "Unknown"
  {
    if c.capital.Some? && |c.capital.value| > 0 then c.capital.value[0] else "Unknown"
  }

  /** `list(d.get('languages', {}).values()) if d.get('languages') else ['Unknown']`. */
  function LanguagesOf(c: Country): (ls: seq<string>)
    ensures |ls| > 0
    ensures c.languages.Some? && |c.languages.value| > 0 ==> ls == Values(c.languages.value)
    ensures c.languages.None? || |c.languages.value| == 0 ==> ls == ["Unknown"]
  {
    if c.languages.Some? && |c.languages.value| > 0 then Values(c.languages.value) else ["Unknown"]
  }

  /** The facts a prompt is filled with; the language list is never empty. */
  function FactsOf(c: Country): (r: Facts)
    ensures |r.languages| > 0
  {
    Facts(
      if c.name.Some? then c.name.value.common.GetOr("Unknown") else "Unknown",
      CapitalOf(c),
      PopulationOf(c),
      AreaOf(c),
      c.region.GetOr("Unknown"),
      LanguagesOf(c))
  }

  /** Every field the object has is carried into the facts unchanged. */
  lemma FactsKeepPresent(c: Country)
    ensures c.name.Some? && c.name.value.common.Some? ==> FactsOf(c).name == c.name.value.common.value
    ensures c.capital.Some? && |c.capital.value| > 0 ==> FactsOf(c).capital == c.capital.value[0]
    ensures c.population.Some? ==> FactsOf(c).population == c.population.value
    ensures c.area.Some? ==> FactsOf(c).area == c.area.value
    ensures c.region.Some? ==> FactsOf(c).region == c.region.value
    ensures c.languages.Some? ==> forall i :: 0 <= i < |c.languages.value| ==>
                                    FactsOf(c).languages[i] == c.languages.value[i].value
  {
  }

  /** Every missing field gets its placeholder, and the language list is
      never empty. */
  lemma FactsPlaceholders(c: Country)
    ensures c.name.None? || c.name.value.common.None? ==> FactsOf(c).name == "Unknown"
    ensures c.capital.None? || |c.capital.value| == 0 ==> FactsOf(c).capital == "Unknown"
    ensures c.population.None? ==> FactsOf(c).population == 0
    ensures c.area.None? ==> FactsOf(c).area == 0
    ensures c.region.None? ==> FactsOf(c).region == "Unknown"
    ensures c.languages.None? || |c.languages.value| == 0 ==> FactsOf(c).languages == ["Unknown"]
    ensures |FactsOf(c).languages| > 0
  {
  }

  /** The two pages' policies differ on the same object: for a present but
      empty capital list the chatbot's lookup fails outright, while here the
      capital simply reads "Unknown"; with no languages (the key absent or
      an empty map) the chatbot keeps an empty list, while here the list is
      `["Unknown"]`. */
  lemma PlaceholderContrast(c: Country)
    requires c.capital == Some([])
    ensures CountryChatbot.Normalize(c).None?
    ensures FactsOf(c).capital == "Unknown"
  {
  }

  lemma LanguageContrast(c: Country)
    requires (c.languages.None? || |c.languages.value| == 0) && (c.capital.None? || |c.capital.value| > 0)
    ensures CountryChatbot.Normalize(c).value.languages == []
    ensures FactsOf(c).languages == ["Unknown"]
  {
  }

  // ---------------------------------------------------------------------
  // Generation
  // ---------------------------------------------------------------------

  /** What is put to the model: the facts and the user's choices. The
      wording of the two prompt templates is not modelled. */
  datatype Request =
    | GuideRequest(facts: Facts, travelerType: string, duration: int)
    | ComparisonRequest(first: Facts, second: Facts, aspect: string)

  /** A generator's text and the request it sent, `None` when the model was
      not called. */
  datatype Generation = Generation(text: string, sent: Option<Request>)

  const NotConfiguredText := "Gemini API not configured." + " Please check your API key."
  const GuideErrorPrefix := "Error generating travel guide: "
  const ComparisonErrorPrefix := "Error generating comparison: "

  /** The shared shape of both generators: short-circuit when the model is
      unavailable, otherwise send the request and return the model's text
      as is (no stripping), or the error prefix and the exception's message. */
  function Generate(available: bool, request: Request, errorPrefix: string,
                    outcome: CountryChatbot.GenOutcome): (g: Generation)
    ensures g.sent.None? <==> !available
    ensures g.sent.Some? ==> g.sent.value == request
    ensures !available ==> g.text == NotConfiguredText
    ensures available && outcome.Generated? ==> g.text == outcome.text
    ensures available && outcome.Failed? ==> StartsWith(g.text, errorPrefix)
    ensures available && outcome.Failed? ==> g.text[|errorPrefix|..] == outcome.message
  {
    if !available then Generation(NotConfiguredText, None)
    else match outcome
      case Generated(text) => Generation(text, Some(request))
      case Failed(message) => Generation(errorPrefix + message, Some(request))
  }

  /** `generate_travel_guide`. */
  function TravelGuide(available: bool, c: Country, travelerType: string, duration: int,
                       outcome: CountryChatbot.GenOutcome): (g: Generation)
    ensures g.sent.None? <==> !available
    ensures g.sent.Some? ==> g.sent.value == GuideRequest(FactsOf(c), travelerType, duration)
    ensures !available ==> g.text == NotConfiguredText
    ensures available && outcome.Generated? ==> g.text == outcome.text
    ensures available && outcome.Failed? ==> StartsWith(g.text, GuideErrorPrefix)
    ensures available && outcome.Failed? ==> g.text[|GuideErrorPrefix|..] == outcome.message
  {
    Generate(available, GuideRequest(FactsOf(c), travelerType, duration), GuideErrorPrefix, outcome)
  }

  /** `generate_country_comparison`. */
  function CountryComparison(available: bool, a: Country, b: Country, aspect: string,
                             outcome: CountryChatbot.GenOutcome): (g: Generation)
    ensures g.sent.None? <==> !available
    ensures g.sent.Some? ==> g.sent.value == ComparisonRequest(FactsOf(a), FactsOf(b), aspect)
    ensures !available ==> g.text == NotConfiguredText
    ensures available && outcome.Generated? ==> g.text == outcome.text
    ensures available && outcome.Failed? ==> StartsWith(g.text, ComparisonErrorPrefix)
    ensures available && outcome.Failed? ==> g.text[|ComparisonErrorPrefix|..] == outcome.message
  {
    Generate(available, ComparisonRequest(FactsOf(a), FactsOf(b), aspect), ComparisonErrorPrefix, outcome)
  }

  /** When the model fails the texts cannot be confused: the
      not-configured notice carries neither error prefix, and the two
      prefixes differ, so an error text says which generator failed. */
  lemma ErrorTextsDistinct(message: string)
    ensures !StartsWith(NotConfiguredText, GuideErrorPrefix)
    ensures !StartsWith(NotConfiguredText, ComparisonErrorPrefix)
    ensures !StartsWith(GuideErrorPrefix + message, ComparisonErrorPrefix)
  {
    assert NotConfiguredText[0] == 'G';
    assert GuideErrorPrefix[0] == 'E';
    assert ComparisonErrorPrefix[0] == 'E';
    assert (GuideErrorPrefix + message)[17] == 't';
    assert ComparisonErrorPrefix[17] == 'c';
  }

  /** When the model call fails, the text shown says which generator
      failed: a guide error never reads as a comparison error or as the
      not-configured notice, nor a comparison error as a guide error. */
  lemma FailedGenerationsDistinct(c: Country, travelerType: string, duration: int,
                                  a: Country, b: Country, aspect: string, message: string)
    ensures var guide := TravelGuide(true, c, travelerType, duration, CountryChatbot.Failed(message)).text;
      && !StartsWith(guide, ComparisonErrorPrefix)
      && guide != NotConfiguredText
    ensures var comparison := CountryComparison(true, a, b, aspect, CountryChatbot.Failed(message)).text;
      && !StartsWith(comparison, GuideErrorPrefix)
      && comparison != NotConfiguredText
  {
    var failed := CountryChatbot.Failed(message);
    var guide := TravelGuide(true, c, travelerType, duration, failed).text;
    var comparison := CountryComparison(true, a, b, aspect, failed).text;
    ErrorTextsDistinct(message);
    assert guide == GuideErrorPrefix + message;
    assert comparison == ComparisonErrorPrefix + message;
    assert guide[0] == 'E' && comparison[0] == 'E';
    assert comparison[17] == 'c';
  }

  /** Unlike the chatbot's answer, a generated guide keeps the whitespace
      around the model's text. */
  lemma GuideKeepsWhitespace(c: Country, travelerType: string, duration: int)
    ensures TravelGuide(true, c, travelerType, duration, CountryChatbot.Generated(" x ")).text == " x "
    ensures CountryChatbot.AskGemini(true, CountryChatbot.Generated(" x ")) == CountryChatbot.Answer("x")
  {
    var s := " x ";
    assert LeadingSpaces(s) == 1 by {
      assert s[1..] == "x " && "x "[0] == 'x';
    }
    assert TrailingSpaces(s[1..]) == 1 by {
      assert s[1..] == "x " && "x "[..1] == "x" && "x"[0] == 'x';
    }
    assert Strip(s) == "x";
  }

  // ---------------------------------------------------------------------
  // The two tabs
  // ---------------------------------------------------------------------

  /** The travel-guide tab after its button is pressed. */
  datatype GuideView =
    | AskForName                         // the name box was empty
    | NoData(query: string)              // no match for the name
    | GuideShown(guide: Generation, capital: string, population: nat, languages: Abbreviation)

  /** A tab's outcome together with the requests it made. */
  datatype Run<V> = Run(view: V, requested: seq<Endpoint>)

  /** The guide tab: an empty name asks for one without a lookup; otherwise
      the match feeds the generator and three metrics, the languages metric
      showing at most two names. */
  function GuideTab(name: string, travelerType: string, duration: int, available: bool,
                    net: Endpoint -> Reply, outcome: CountryChatbot.GenOutcome): (r: Run<GuideView>)
    ensures r.view.AskForName? <==> name == ""
    ensures name == "" ==> r.requested == []
    ensures name != "" ==> r.requested == [NameSearch(name)]
    ensures r.view.NoData? <==> name != "" && !HasMatches(net(NameSearch(name)))
    ensures r.view.NoData? ==> r.view.query == name
    ensures r.view.GuideShown? ==>
              var c := net(NameSearch(name)).body[0];
              && r.view.guide == TravelGuide(available, c, travelerType, duration, outcome)
              && r.view.capital == FactsOf(c).capital
              && r.view.population == FactsOf(c).population
              && |r.view.languages.shown| <= 2
              && r.view.languages.shown <= FactsOf(c).languages
              && |r.view.languages.shown| == (if |FactsOf(c).languages| < 2 then |FactsOf(c).languages| else 2)
              && (r.view.languages.more <==> |FactsOf(c).languages| > 2)
  {
    if name == "" then Run(AskForName, [])
    else
      var l := LookupRaw(name, net);
      match l.found
      case None => Run(NoData(name), l.requested)
      case Some(c) =>
        Run(GuideShown(TravelGuide(available, c, travelerType, duration, outcome),
                       CapitalOf(c), PopulationOf(c), Abbreviate(LanguagesOf(c), 2)),
            l.requested)
  }

  /** Population and area of one side of the quick stats. */
  datatype Stats = Stats(population: nat, area: nat)

  /** The comparison tab after its button is pressed. */
  datatype ComparisonView =
    | AskForBoth                         // a name box was empty
    | Missing(names: seq<string>)        // the names whose lookup failed
    | Compared(comparison: Generation, first: Stats, second: Stats)

  /** The names whose lookup failed, the first name before the second. */
  function MissingNames(a: string, b: string, p: Pair): (ns: seq<string>)
    ensures |ns| == (if p.first.None? then 1 else 0) + (if p.second.None? then 1 else 0)
    ensures p.first.None? ==> ns[0] == a
    ensures p.second.None? ==> ns[|ns| - 1] == b
  {
    (if p.first.None? then [a] else []) + (if p.second.None? then [b] else [])
  }

  /** The comparison tab: both names are needed before anything is looked
      up; with both matches the generator runs, otherwise the failed names
      are listed. */
  function ComparisonTab(a: string, b: string, aspect: string, available: bool,
                         net: Endpoint -> Reply, outcome: CountryChatbot.GenOutcome): (r: Run<ComparisonView>)
    ensures r.view.AskForBoth? <==> a == "" || b == ""
    ensures r.view.AskForBoth? ==> r.requested == []
    ensures !r.view.AskForBoth? ==> r.requested == [NameSearch(a), NameSearch(b)]
    ensures r.view.Compared? <==>
              a != "" && b != "" && HasMatches(net(NameSearch(a))) && HasMatches(net(NameSearch(b)))
    ensures r.view.Missing? ==> 1 <= |r.view.names| <= 2
    ensures r.view.Missing? ==>
              (r.view.names[0] == a <==> !HasMatches(net(NameSearch(a))))
    ensures r.view.Missing? ==> r.view.names == MissingNames(a, b, Comparison(a, b, net))
    ensures r.view.Compared? ==>
              var x, y := net(NameSearch(a)).body[0], net(NameSearch(b)).body[0];
              && r.view.comparison == CountryComparison(available, x, y, aspect, outcome)
              && r.view.first == Stats(PopulationOf(x), AreaOf(x))
              && r.view.second == Stats(PopulationOf(y), AreaOf(y))
  {
    if a == "" || b == "" then Run(AskForBoth, [])
    else
      var p := Comparison(a, b, net);
      if p.first.Some? && p.second.Some? then
        var x, y := p.first.value, p.second.value;
        Run(Compared(CountryComparison(available, x, y, aspect, outcome),
                     Stats(PopulationOf(x), AreaOf(x)), Stats(PopulationOf(y), AreaOf(y))),
            p.requested)
      else
        Run(Missing(MissingNames(a, b, p)), p.requested)
  }

  /** The missing list names exactly the failed lookups: a name appears in
      it iff its lookup failed, in argument order,
      and with both failed it is `[a, b]`. */
  lemma MissingExactly(a: string, b: string, aspect: string, available: bool,
                       net: Endpoint -> Reply, outcome: CountryChatbot.GenOutcome)
    requires a != "" && b != ""
    ensures var v := ComparisonTab(a, b, aspect, available, net, outcome).view;
      v.Missing? ==>
        && (a in v.names <==> !HasMatches(net(NameSearch(a))))
        && (b in v.names <==> !HasMatches(net(NameSearch(b))))
        && (!HasMatches(net(NameSearch(a))) && !HasMatches(net(NameSearch(b))) ==> v.names == [a, b])
  {
  }
}

=== FILE: records.dfy ===
/** The country objects returned by the REST Countries API, as far as the
    pages read them, and the shape of one HTTP exchange with that API. */
module Records {
  import opened Wrappers

  /** The `name` object: `{"common": ..., "official": ...}`. */
  datatype Names = Names(common: Option<string>, official: Option<string>)

  /** One key/value pair of a JSON object, in the object's own order
      (language code -> language name, currency code -> currency name). */
  datatype Entry = Entry(key: string, value: string)

  /** One JSON country object. `None` stands for a key the object lacks. */
  datatype Country = Country(
    name: Option<Names>,
    capital: Option<seq<string>>,
    region: Option<string>,
    subregion: Option<string>,
    population: Option<nat>,
    area: Option<nat>,
    languages: Option<seq<Entry>>,
    currencies: Option<seq<Entry>>,
    flag: Option<string>)

  /** `list(d.values())`. */
  function Values(m: seq<Entry>): (vs: seq<string>)
    ensures |vs| == |m| && forall i :: 0 <= i < |m| ==> vs[i] == m[i].value
  {
    if |m| == 0 then [] else [m[0].value] + Values(m[1..])
  }

  /** `list(d.keys())`. */
  function Keys(m: seq<Entry>): (ks: seq<string>)
    ensures |ks| == |m| && forall i :: 0 <= i < |m| ==> ks[i] == m[i].key
  {
    if |m| == 0 then [] else [m[0].key] + Keys(m[1..])
  }

  /** `country.get('population', 0)`, the same on every page. */
  function PopulationOf(c: Country): nat {
    c.population.GetOr(0)
  }

  /** `country.get('area', 0)`, the same on every page. */
  function AreaOf(c: Country): nat {
    c.area.GetOr(0)
  }

  /** `sum(country.get('population', 0) for country in cs)`. */
  function SumPopulation(cs: seq<Country>): nat {
    if |cs| == 0 then 0 else PopulationOf(cs[0]) + SumPopulation(cs[1..])
  }

  /** `sum(country.get('area', 0) for country in cs)`. */
  function SumArea(cs: seq<Country>): nat {
    if |cs| == 0 then 0 else AreaOf(cs[0]) + SumArea(cs[1..])
  }

  lemma {:induction false} SumsAppend(a: seq<Country>, b: seq<Country>)
    ensures SumPopulation(a + b) == SumPopulation(a) + SumPopulation(b)
    ensures SumArea(a + b) == SumArea(a) + SumArea(b)
  {
    if |a| == 0 {
      assert a + b == b;
    } else {
      assert (a + b)[1..] == a[1..] + b;
      SumsAppend(a[1..], b);
    }
  }

  /** The endpoints of the country directory that the pages request. */
  datatype Endpoint =
    | AllCountries               // GET {base}/all
    | RegionSearch(slug: string) // GET {base}/region/{slug}
    | NameSearch(query: string)  // GET {base}/name/{query}

  /** What one request yields: an exception from the HTTP client (which also
      stands for a body that is not a JSON array), or a response whose body
      is the decoded array. */
  datatype Reply = Raised | Response(status: int, body: seq<Country>)

  /** A 200 response with a non-empty array. */
  predicate HasMatches(r: Reply) {
    r.Response? && r.status == 200 && |r.body| > 0
  }

  /** The result of a lookup together with the endpoints it requested, in
      request order. */
  datatype Lookup<T> = Lookup(found: Option<T>, requested: seq<Endpoint>)
}

=== FILE: rollup.dfy ===
/** The per-region tallies of the dashboard: the `region_stats` rollup of the
    "Regional Insights" tab and the region counts behind the pie chart. Both
    key a record by `country.get('region', 'Unknown')` and keep regions in
    the order they are first met (a Python dict's insertion order). */
module RegionRollup {
  import opened Wrappers
  import opened Records

  datatype RegionStats = RegionStats(region: string, count: nat, population: nat, area: nat)

  function RollupRegionOf(c: Country): string {
    c.region.GetOr("Unknown")
  }

  /** The entry a region gets when its first country is met. */
  function Fresh(c: Country): RegionStats {
    RegionStats(RollupRegionOf(c), 1, PopulationOf(c), AreaOf(c))
  }

  /** An existing entry after one more country of its region. */
  function Bump(e: RegionStats, c: Country): RegionStats {
    e.(count := e.count + 1, population := e.population + PopulationOf(c), area := e.area + AreaOf(c))
  }

  /** Adds one country to the tallies. */
  function Tally(stats: seq<RegionStats>, c: Country): (r: seq<RegionStats>)
    ensures |r| == if Find(stats, RollupRegionOf(c)).Some? then |stats| else |stats| + 1
  {
    if |stats| == 0 then [Fresh(c)]
    else if stats[0].region == RollupRegionOf(c) then [Bump(stats[0], c)] + stats[1..]
    else [stats[0]] + Tally(stats[1..], c)
  }

  /** Entries never move: each keeps its place and region, and a new
      region's entry goes at the end. */
  lemma {:induction false} TallyKeepsOrder(stats: seq<RegionStats>, c: Country)
    ensures |Tally(stats, c)| >= |stats|
    ensures forall i :: 0 <= i < |stats| ==> Tally(stats, c)[i].region == stats[i].region
    ensures Find(stats, RollupRegionOf(c)).None? ==> Tally(stats, c)[|stats|] == Fresh(c)
  {
    if |stats| > 0 && stats[0].region != RollupRegionOf(c) {
      TallyKeepsOrder(stats[1..], c);
    }
  }

  /** The loop over all countries. */
  function Rollup(cs: seq<Country>): (r: seq<RegionStats>)
    ensures |r| <= |cs|
  {
    if |cs| == 0 then [] else Tally(Rollup(cs[..|cs| - 1]), cs[|cs| - 1])
  }

  /** `region_stats.get(g)`. */
  function Find(stats: seq<RegionStats>, g: string): (r: Option<RegionStats>)
    ensures r.Some? ==> r.value.region == g
  {
    if |stats| == 0 then None
    else if stats[0].region == g then Some(stats[0])
    else Find(stats[1..], g)
  }

  ghost predicate DistinctRegions(stats: seq<RegionStats>) {
    forall i, j :: 0 <= i < j < |stats| ==> stats[i].region != stats[j].region
  }

  // Reference definitions: the countries of region g, counted and summed
  // directly over the input list.

  function CountIn(cs: seq<Country>, g: string): nat {
    if |cs| == 0 then 0
    else CountIn(cs[..|cs| - 1], g) + (if RollupRegionOf(cs[|cs| - 1]) == g then 1 else 0)
  }

  function PopulationIn(cs: seq<Country>, g: string): nat {
    if |cs| == 0 then 0
    else PopulationIn(cs[..|cs| - 1], g) + (if RollupRegionOf(cs[|cs| - 1]) == g then PopulationOf(cs[|cs| - 1]) else 0)
  }

  function AreaIn(cs: seq<Country>, g: string): nat {
    if |cs| == 0 then 0
    else AreaIn(cs[..|cs| - 1], g) + (if RollupRegionOf(cs[|cs| - 1]) == g then AreaOf(cs[|cs| - 1]) else 0)
  }

  lemma {:induction false} NoCountNoSums(cs: seq<Country>, g: string)
    requires CountIn(cs, g) == 0
    ensures PopulationIn(cs, g) == 0 && AreaIn(cs, g) == 0
    decreases |cs|
  {
    if |cs| > 0 {
      NoCountNoSums(cs[..|cs| - 1], g);
    }
  }

  function TotalCount(stats: seq<RegionStats>): nat {
    if |stats| == 0 then 0 else stats[0].count + TotalCount(stats[1..])
  }

  function TotalPopulation(stats: seq<RegionStats>): nat {
    if |stats| == 0 then 0 else stats[0].population + TotalPopulation(stats[1..])
  }

  function TotalArea(stats: seq<RegionStats>): nat {
    if |stats| == 0 then 0 else stats[0].area + TotalArea(stats[1..])
  }

  lemma {:induction false} TallyFind(stats: seq<RegionStats>, c: Country, g: string)
    ensures Find(Tally(stats, c), g) ==
      if g != RollupRegionOf(c) then Find(stats, g)
      else match Find(stats, g)
        case None => Some(Fresh(c))
        case Some(e) => Some(Bump(e, c))
  {
    if |stats| > 0 && stats[0].region != RollupRegionOf(c) {
      TallyFind(stats[1..], c, g);
      assert ([stats[0]] + Tally(stats[1..], c))[1..] == Tally(stats[1..], c);
    }
  }

  lemma {:induction false} TallyTotals(stats: seq<RegionStats>, c: Country)
    ensures TotalCount(Tally(stats, c)) == TotalCount(stats) + 1
    ensures TotalPopulation(Tally(stats, c)) == TotalPopulation(stats) + PopulationOf(c)
    ensures TotalArea(Tally(stats, c)) == TotalArea(stats) + AreaOf(c)
  {
    if |stats| > 0 {
      if stats[0].region == RollupRegionOf(c) {
        assert ([Bump(stats[0], c)] + stats[1..])[1..] == stats[1..];
      } else {
        TallyTotals(stats[1..], c);
        assert ([stats[0]] + Tally(stats[1..], c))[1..] == Tally(stats[1..], c);
      }
    }
  }

  lemma {:induction false} TallyKeepsDistinct(stats: seq<RegionStats>, c: Country)
    requires DistinctRegions(stats)
    ensures DistinctRegions(Tally(stats, c))
    ensures forall i :: 0 <= i < |Tally(stats, c)| ==>
              Tally(stats, c)[i].region == RollupRegionOf(c)
              || exists j :: 0 <= j < |stats| && stats[j].region == Tally(stats, c)[i].region
  {
    if |stats| > 0 && stats[0].region != RollupRegionOf(c) {
      var t := Tally(stats[1..], c);
      TallyKeepsDistinct(stats[1..], c);
      var r := [stats[0]] + t;
      forall i | 1 <= i < |r|
        ensures r[i].region != stats[0].region
      {
        assert r[i] == t[i - 1];
        if r[i].region != RollupRegionOf(c) {
          var j :| 0 <= j < |stats[1..]| && stats[1..][j].region == t[i - 1].region;
          assert stats[j + 1].region == r[i].region;
        }
      }
      forall i | 1 <= i < |r|
        ensures r[i].region == RollupRegionOf(c)
                || exists j :: 0 <= j < |stats| && stats[j].region == r[i].region
      {
        assert r[i] == t[i - 1];
        if r[i].region != RollupRegionOf(c) {
          var j :| 0 <= j < |stats[1..]| && stats[1..][j].region == t[i - 1].region;
          assert stats[j + 1].region == r[i].region;
        }
      }
    }
  }

  /** Each region appears once, and its entry holds exactly the number,
      population total and area total of the input countries in that
      region; a region with no country has no entry. */
  lemma {:induction false} RollupPerRegion(cs: seq<Country>, g: string)
    ensures DistinctRegions(Rollup(cs))
    ensures Find(Rollup(cs), g) ==
      if CountIn(cs, g) == 0 then None
      else Some(RegionStats(g, CountIn(cs, g), PopulationIn(cs, g), AreaIn(cs, g)))
    decreases |cs|
  {
    if |cs| > 0 {
      var init, last := cs[..|cs| - 1], cs[|cs| - 1];
      RollupPerRegion(init, g);
      TallyFind(Rollup(init), last, g);
      TallyKeepsDistinct(Rollup(init), last);
      assert Rollup(cs) == Tally(Rollup(init), last);
      if g == RollupRegionOf(last) {
        assert CountIn(cs, g) == CountIn(init, g) + 1;
        assert PopulationIn(cs, g) == PopulationIn(init, g) + PopulationOf(last);
        assert AreaIn(cs, g) == AreaIn(init, g) + AreaOf(last);
        if CountIn(init, g) == 0 {
          NoCountNoSums(init, g);
          assert Find(Rollup(cs), g) == Some(Fresh(last));
        } else {
          var e := RegionStats(g, CountIn(init, g), PopulationIn(init, g), AreaIn(init, g));
          assert Find(Rollup(cs), g) == Some(Bump(e, last));
        }
      }
    }
  }

  /** The counts add up to the number of input countries, and the
      population and area totals to the grand totals. */
  lemma {:induction false} RollupTotals(cs: seq<Country>)
    ensures TotalCount(Rollup(cs)) == |cs|
    ensures TotalPopulation(Rollup(cs)) == SumPopulation(cs)
    ensures TotalArea(Rollup(cs)) == SumArea(cs)
    ensures |Rollup(cs)| == 0 <==> |cs| == 0
    decreases |cs|
  {
    if |cs| > 0 {
      var init, last := cs[..|cs| - 1], cs[|cs| - 1];
      assert cs == init + [last];
      RollupTotals(init);
      TallyTotals(Rollup(init), last);
      SumsAppend(init, [last]);
    }
  }

  /** First-seen order: counting one more country leaves every existing
      entry in its place with its region, and a country from a region not
      seen before opens a fresh entry at the end. */
  lemma RollupFirstSeen(cs: seq<Country>, c: Country)
    ensures |Rollup(cs + [c])| >= |Rollup(cs)|
    ensures forall i :: 0 <= i < |Rollup(cs)| ==> Rollup(cs + [c])[i].region == Rollup(cs)[i].region
    ensures CountIn(cs, RollupRegionOf(c)) == 0 ==>
              |Rollup(cs + [c])| == |Rollup(cs)| + 1 && Rollup(cs + [c])[|Rollup(cs)|] == Fresh(c)
  {
    assert (cs + [c])[..|cs|] == cs;
    assert Rollup(cs + [c]) == Tally(Rollup(cs), c);
    TallyKeepsOrder(Rollup(cs), c);
    RollupPerRegion(cs, RollupRegionOf(c));
  }

  datatype Slice = Slice(region: string, count: nat)

  function SliceTotal(slices: seq<Slice>): nat {
    if |slices| == 0 then 0 else slices[0].count + SliceTotal(slices[1..])
  }

  function Slices(stats: seq<RegionStats>): (r: seq<Slice>)
    ensures |r| == |stats|
    ensures forall i :: 0 <= i < |stats| ==> r[i] == Slice(stats[i].region, stats[i].count)
    ensures SliceTotal(r) == TotalCount(stats)
  {
    if |stats| == 0 then [] else [Slice(stats[0].region, stats[0].count)] + Slices(stats[1..])
  }

  /** `create_region_pie_chart`: the region counts of the given countries,
      one slice per region, or no chart when there are none. */
  function RegionPie(cs: seq<Country>): (r: Option<seq<Slice>>)
    ensures r.None? <==> |cs| == 0
    ensures r.Some? ==> SliceTotal(r.value) == |cs|
    ensures r.Some? ==> forall i :: 0 <= i < |r.value| ==>
              r.value[i].count == CountIn(cs, r.value[i].region) && r.value[i].count > 0
    ensures r.Some? ==> forall i, j :: 0 <= i < j < |r.value| ==> r.value[i].region != r.value[j].region
  {
    RollupTotals(cs);
    RollupPerRegion(cs, "");
    var stats := Rollup(cs);
    if |stats| == 0 then None
    else
      var slices := Slices(stats);
      assert forall i :: 0 <= i < |slices| ==>
               slices[i].count == CountIn(cs, slices[i].region) && slices[i].count > 0 by {
        forall i | 0 <= i < |slices|
          ensures slices[i].count == CountIn(cs, slices[i].region) && slices[i].count > 0
        {
          RollupPerRegion(cs, stats[i].region);
          FindDistinct(stats, i);
        }
      }
      Some(slices)
  }

  /** In tallies with distinct regions, looking up an entry's own region
      finds that entry. */
  lemma {:induction false} FindDistinct(stats: seq<RegionStats>, i: nat)
    requires DistinctRegions(stats) && i < |stats|
    ensures Find(stats, stats[i].region) == Some(stats[i])
  {
    if i > 0 {
      FindDistinct(stats[1..], i - 1);
    }
  }
}

=== FILE: sorting.dfy ===
/** The dashboard's sort: Python's stable `list.sort`, descending by
    population or area (`reverse=True`), ascending by common name. */
module Sorting {
  import opened Wrappers
  import opened Text
  import opened Records

  datatype SortKey = ByPopulation | ByArea | ByName

  /** `x.get('name', {}).get('common', '')`: the name key of the name sort. */
  function SortNameOf(c: Country): string {
    match c.name
    case None => ""
    case Some(n) => n.common.GetOr("")
  }

  /** `a` may be placed before `b` under key `k`. */
  predicate Precedes(k: SortKey, a: Country, b: Country) {
    match k
    case ByPopulation => PopulationOf(a) >= PopulationOf(b)
    case ByArea => AreaOf(a) >= AreaOf(b)
    case ByName => LexLe(SortNameOf(a), SortNameOf(b))
  }

  /** `a` and `b` have equal sort keys. */
  predicate Equiv(k: SortKey, a: Country, b: Country) {
    Precedes(k, a, b) && Precedes(k, b, a)
  }

  lemma PrecedesTotal(k: SortKey, a: Country, b: Country)
    ensures Precedes(k, a, b) || Precedes(k, b, a)
  {
    if k == ByName {
      LexLeTotal(SortNameOf(a), SortNameOf(b));
    }
  }

  lemma PrecedesTransitive(k: SortKey, a: Country, b: Country, c: Country)
    requires Precedes(k, a, b) && Precedes(k, b, c)
    ensures Precedes(k, a, c)
  {
    if k == ByName {
      LexLeTransitive(SortNameOf(a), SortNameOf(b), SortNameOf(c));
    }
  }

  /** Under the name key, equal keys are equal common names. */
  lemma NameEquivIsSameName(a: Country, b: Country)
    requires Equiv(ByName, a, b)
    ensures SortNameOf(a) == SortNameOf(b)
  {
    LexLeAntisymmetric(SortNameOf(a), SortNameOf(b));
  }

  ghost predicate Sorted(k: SortKey, s: seq<Country>) {
    forall i, j :: 0 <= i < j < |s| ==> Precedes(k, s[i], s[j])
  }

  /** The elements of `s` whose key equals that of `y`, in `s`'s order. A
      sort is stable exactly when it leaves every such subsequence alone. */
  function Ties(k: SortKey, s: seq<Country>, y: Country): seq<Country> {
    if |s| == 0 then []
    else (if Equiv(k, s[0], y) then [s[0]] else []) + Ties(k, s[1..], y)
  }

  /** Places `x` after every element it does not strictly beat, so that an
      element inserted later stays behind its equals. */
  function Insert(k: SortKey, x: Country, s: seq<Country>): (r: seq<Country>)
    ensures |r| == |s| + 1
  {
    if |s| == 0 then [x]
    else if !Precedes(k, s[0], x) then [x] + s
    else [s[0]] + Insert(k, x, s[1..])
  }

  /** Insertion sort taking the input front to back. */
  function Sort(k: SortKey, xs: seq<Country>): (r: seq<Country>)
    ensures |r| == |xs|
  {
    if |xs| == 0 then [] else Insert(k, xs[|xs| - 1], Sort(k, xs[..|xs| - 1]))
  }

  lemma {:induction false} TiesAppend(k: SortKey, a: seq<Country>, b: seq<Country>, y: Country)
    ensures Ties(k, a + b, y) == Ties(k, a, y) + Ties(k, b, y)
  {
    if |a| == 0 {
      assert a + b == b;
    } else {
      assert (a + b)[1..] == a[1..] + b;
      TiesAppend(k, a[1..], b, y);
    }
  }

  lemma {:induction false} NoTies(k: SortKey, s: seq<Country>, y: Country)
    requires forall i :: 0 <= i < |s| ==> !Equiv(k, s[i], y)
    ensures Ties(k, s, y) == []
  {
    if |s| > 0 {
      NoTies(k, s[1..], y);
    }
  }

  lemma {:induction false} InsertPermutes(k: SortKey, x: Country, s: seq<Country>)
    ensures multiset(Insert(k, x, s)) == multiset(s) + multiset{x}
    ensures SumPopulation(Insert(k, x, s)) == SumPopulation(s) + PopulationOf(x)
    ensures SumArea(Insert(k, x, s)) == SumArea(s) + AreaOf(x)
  {
    if |s| > 0 {
      if !Precedes(k, s[0], x) {
        assert ([x] + s)[1..] == s;
      } else {
        InsertPermutes(k, x, s[1..]);
        assert s == [s[0]] + s[1..];
        assert ([s[0]] + Insert(k, x, s[1..]))[1..] == Insert(k, x, s[1..]);
      }
    }
  }

  /** `x` placed in front of a sorted list it strictly beats. */
  lemma PrependSorted(k: SortKey, x: Country, s: seq<Country>)
    requires Sorted(k, s) && |s| > 0 && !Precedes(k, s[0], x)
    ensures Sorted(k, [x] + s)
  {
    PrecedesTotal(k, s[0], x);
    forall j | 0 <= j < |s|
      ensures Precedes(k, x, s[j])
    {
      if j > 0 { PrecedesTransitive(k, x, s[0], s[j]); }
    }
    var r := [x] + s;
    forall i, j | 0 <= i < j < |r|
      ensures Precedes(k, r[i], r[j])
    {
      if i > 0 { assert r[i] == s[i - 1] && r[j] == s[j - 1]; }
    }
  }

  /** When the head of a sorted list precedes `x`, it precedes everything
      the rest of the list holds together with `x`. */
  lemma HeadPrecedesAll(k: SortKey, x: Country, s: seq<Country>, t: seq<Country>)
    requires Sorted(k, s) && |s| > 0 && Precedes(k, s[0], x)
    requires multiset(t) == multiset(s[1..]) + multiset{x}
    ensures forall j :: 0 <= j < |t| ==> Precedes(k, s[0], t[j])
  {
    forall j | 0 <= j < |t|
      ensures Precedes(k, s[0], t[j])
    {
      assert t[j] in multiset(t);
      if t[j] != x {
        assert t[j] in multiset(s[1..]);
        var m :| 0 <= m < |s[1..]| && s[1..][m] == t[j];
        assert s[m + 1] == t[j];
      }
    }
  }

  lemma ConsSorted(k: SortKey, h: Country, t: seq<Country>)
    requires Sorted(k, t)
    requires forall j :: 0 <= j < |t| ==> Precedes(k, h, t[j])
    ensures Sorted(k, [h] + t)
  {
    var r := [h] + t;
    forall i, j | 0 <= i < j < |r|
      ensures Precedes(k, r[i], r[j])
    {
      if i > 0 { assert r[i] == t[i - 1] && r[j] == t[j - 1]; }
      else { assert r[j] == t[j - 1]; }
    }
  }

  lemma {:induction false} InsertSorted(k: SortKey, x: Country, s: seq<Country>)
    requires Sorted(k, s)
    ensures Sorted(k, Insert(k, x, s))
  {
    if |s| == 0 {
    } else if !Precedes(k, s[0], x) {
      PrependSorted(k, x, s);
    } else {
      var t := Insert(k, x, s[1..]);
      SortedTail(k, s);
      InsertSorted(k, x, s[1..]);
      InsertPermutes(k, x, s[1..]);
      HeadPrecedesAll(k, x, s, t);
      ConsSorted(k, s[0], t);
    }
  }

  /** When `x` strictly beats the head of a sorted list, no element of the
      list ties with anything `x` ties with. */
  lemma NoTiesBehind(k: SortKey, x: Country, s: seq<Country>, y: Country)
    requires Sorted(k, s) && |s| > 0 && !Precedes(k, s[0], x) && Equiv(k, x, y)
    ensures Ties(k, s, y) == []
  {
    forall i | 0 <= i < |s|
      ensures !Equiv(k, s[i], y)
    {
      if Equiv(k, s[i], y) {
        PrecedesTransitive(k, s[i], y, x);
        if i > 0 {
          PrecedesTransitive(k, s[0], s[i], x);
        }
        assert false;
      }
    }
    NoTies(k, s, y);
  }

  lemma {:induction false} InsertTies(k: SortKey, x: Country, s: seq<Country>, y: Country)
    requires Sorted(k, s)
    ensures Ties(k, Insert(k, x, s), y) == Ties(k, s, y) + (if Equiv(k, x, y) then [x] else [])
  {
    if |s| == 0 {
      assert Ties(k, [x], y) == (if Equiv(k, x, y) then [x] else []) + Ties(k, [], y);
    } else if !Precedes(k, s[0], x) {
      InsertTiesFront(k, x, s, y);
    } else {
      var t := Insert(k, x, s[1..]);
      SortedTail(k, s);
      InsertTies(k, x, s[1..], y);
      var r := [s[0]] + t;
      assert r[0] == s[0] && r[1..] == t;
      var head := if Equiv(k, s[0], y) then [s[0]] else [];
      var added := if Equiv(k, x, y) then [x] else [];
      assert Ties(k, r, y) == head + (Ties(k, s[1..], y) + added);
      assert Ties(k, s, y) == head + Ties(k, s[1..], y);
    }
  }

  /** `x` goes in front of a sorted list whose head it strictly beats. */
  lemma InsertTiesFront(k: SortKey, x: Country, s: seq<Country>, y: Country)
    requires Sorted(k, s) && |s| > 0 && !Precedes(k, s[0], x)
    ensures Ties(k, [x] + s, y) == Ties(k, s, y) + (if Equiv(k, x, y) then [x] else [])
  {
    var r := [x] + s;
    assert r[0] == x && r[1..] == s;
    if Equiv(k, x, y) {
      NoTiesBehind(k, x, s, y);
    }
  }

  lemma SortedTail(k: SortKey, s: seq<Country>)
    requires Sorted(k, s) && |s| > 0
    ensures Sorted(k, s[1..])
  {
    forall i, j | 0 <= i < j < |s[1..]|
      ensures Precedes(k, s[1..][i], s[1..][j])
    {
      assert s[1..][i] == s[i + 1] && s[1..][j] == s[j + 1];
    }
  }

  /** The sort is a permutation of its input, ordered by the key, and
      leaves the totals unchanged. */
  lemma {:induction false} SortPermutes(k: SortKey, xs: seq<Country>)
    ensures Sorted(k, Sort(k, xs))
    ensures multiset(Sort(k, xs)) == multiset(xs)
    ensures SumPopulation(Sort(k, xs)) == SumPopulation(xs)
    ensures SumArea(Sort(k, xs)) == SumArea(xs)
    decreases |xs|
  {
    if |xs| > 0 {
      var init, last := xs[..|xs| - 1], xs[|xs| - 1];
      assert xs == init + [last];
      SortPermutes(k, init);
      InsertSorted(k, last, Sort(k, init));
      InsertPermutes(k, last, Sort(k, init));
      SumsAppend(init, [last]);
    }
  }

  /** The sort is stable: for every `y`, the elements whose key equals that
      of `y` come out in the order they went in. */
  lemma {:induction false} SortStable(k: SortKey, xs: seq<Country>, y: Country)
    ensures Ties(k, Sort(k, xs), y) == Ties(k, xs, y)
    decreases |xs|
  {
    if |xs| > 0 {
      var init, last := xs[..|xs| - 1], xs[|xs| - 1];
      assert xs == init + [last];
      SortStable(k, init, y);
      SortPermutes(k, init);
      InsertTies(k, last, Sort(k, init), y);
      TiesAppend(k, init, [last], y);
      assert Ties(k, [last], y) == (if Equiv(k, last, y) then [last] else []) + Ties(k, [], y);
    }
  }

  /** A population tie keeps fetch order: B and A (both 5) stay in that
      order behind C (10). */
  lemma PopulationTieExample()
    ensures
      var b := Country(Some(Names(Some("B"), None)), None, None, None, Some(5), None, None, None, None);
      var a := Country(Some(Names(Some("A"), None)), None, None, None, Some(5), None, None, None, None);
      var c := Country(Some(Names(Some("C"), None)), None, None, None, Some(10), None, None, None, None);
      Sort(ByPopulation, [b, a, c]) == [c, b, a]
  {
    var b := Country(Some(Names(Some("B"), None)), None, None, None, Some(5), None, None, None, None);
    var a := Country(Some(Names(Some("A"), None)), None, None, None, Some(5), None, None, None, None);
    var c := Country(Some(Names(Some("C"), None)), None, None, None, Some(10), None, None, None, None);
    assert [b, a, c][..2] == [b, a] && [b, a][..1] == [b] && [b][..0] == [];
    assert Sort(ByPopulation, [b]) == [b];
    assert Insert(ByPopulation, a, [b]) == [b] + Insert(ByPopulation, a, []);
    assert Sort(ByPopulation, [b, a]) == [b, a];
    assert Insert(ByPopulation, c, [b, a]) == [c, b, a];
  }
}

=== FILE: text.dfy ===
/** String helpers with the meaning of the Python built-ins the pages use:
    `str.strip`, `str.startswith`, `in` on strings, `", ".join`, `str(int)`,
    string ordering, and the "first few names, then ..." display. */
module Text {

  /** Python's `str.isspace()` for one character. */
  predicate IsSpace(c: char) {
    || ('\t' <= c <= '\r')
    || ('\U{1C}' <= c <= '\U{1F}')
    || c == ' ' || c == '\U{85}' || c == '\U{A0}' || c == '\U{1680}'
    || ('\U{2000}' <= c <= '\U{200A}')
    || c == '\U{2028}' || c == '\U{2029}' || c == '\U{202F}' || c == '\U{205F}'
    || c == '\U{3000}'
  }

  /** Number of whitespace characters at the front of `s`. */
  function LeadingSpaces(s: string): (n: nat)
    ensures n <= |s|
    ensures forall k :: 0 <= k < n ==> IsSpace(s[k])
    ensures n < |s| ==> !IsSpace(s[n])
  {
    if |s| > 0 && IsSpace(s[0]) then 1 + LeadingSpaces(s[1..]) else 0
  }

  /** Number of whitespace characters at the end of `s`. */
  function TrailingSpaces(s: string): (n: nat)
    ensures n <= |s|
    ensures forall k :: |s| - n <= k < |s| ==> IsSpace(s[k])
    ensures n < |s| ==> !IsSpace(s[|s| - n - 1])
  {
    if |s| > 0 && IsSpace(s[|s| - 1]) then 1 + TrailingSpaces(s[..|s| - 1]) else 0
  }

  /** `r` sits at offset `i` of `s` and every character of `s` around it is
      whitespace. */
  predicate TrimmedAt(s: string, r: string, i: int) {
    && 0 <= i <= |s| - |r|
    && s[i..i + |r|] == r
    && (forall k :: 0 <= k < i ==> IsSpace(s[k]))
    && (forall k :: i + |r| <= k < |s| ==> IsSpace(s[k]))
  }

  /** Python's `s.strip()`: the result is a slice of `s`, everything cut off
      is whitespace, and the result neither starts nor ends with whitespace. */
  function Strip(s: string): (r: string)
    ensures |r| <= |s|
    ensures |r| > 0 ==> !IsSpace(r[0]) && !IsSpace(r[|r| - 1])
    ensures exists i :: TrimmedAt(s, r, i)
  {
    var i := LeadingSpaces(s);
    var t := s[i..];
    var n := TrailingSpaces(t);
    TrimmedSlice(s, i, n);
    t[..|t| - n]
  }

  /** Cutting whitespace runs of lengths `i` and `n` off the two ends of
      `s` leaves a slice that `TrimmedAt` describes. */
  lemma TrimmedSlice(s: string, i: nat, n: nat)
    requires i + n <= |s|
    requires forall k :: 0 <= k < i ==> IsSpace(s[k])
    requires forall k :: |s[i..]| - n <= k < |s[i..]| ==> IsSpace(s[i..][k])
    ensures TrimmedAt(s, s[i..][..|s| - i - n], i)
  {
    var t := s[i..];
    var r := t[..|t| - n];
    assert s[i..i + |r|] == r;
    forall k | i + |r| <= k < |s|
      ensures IsSpace(s[k])
    {
      assert s[k] == t[k - i];
    }
  }

  lemma StripIdempotent(s: string)
    ensures Strip(Strip(s)) == Strip(s)
  {
    var r := Strip(s);
    assert LeadingSpaces(r) == 0;
    assert TrailingSpaces(r[0..]) == 0 by { assert r[0..] == r; }
    assert r[0..][..|r|] == r;
  }

  /** Python's `s.startswith(prefix)`. */
  predicate StartsWith(s: string, prefix: string) {
    |prefix| <= |s| && s[..|prefix|] == prefix
  }

  /** Python's `pattern in s`. */
  predicate Contains(s: string, pattern: string) {
    exists i | 0 <= i <= |s| - |pattern| :: OccursAt(s, pattern, i)
  }

  predicate OccursAt(s: string, pattern: string, i: int) {
    0 <= i <= |s| - |pattern| && s[i..i + |pattern|] == pattern
  }

  /** Python's `s[:n]`. */
  function Take<T>(s: seq<T>, n: nat): (r: seq<T>)
    ensures |r| == if n < |s| then n else |s|
    ensures r <= s
  {
    if n < |s| then s[..n] else s
  }

  /** Python's `sep.join(xs)`. */
  function Join(xs: seq<string>, sep: string): string
  {
    if |xs| == 0 then ""
    else if |xs| == 1 then xs[0]
    else xs[0] + sep + Join(xs[1..], sep)
  }

  /** Python's `a <= b` on strings: lexicographic by code point, a proper
      prefix ordered first. */
  predicate LexLe(a: string, b: string) {
    if |a| == 0 then true
    else if |b| == 0 then false
    else if a[0] != b[0] then a[0] < b[0]
    else LexLe(a[1..], b[1..])
  }

  lemma {:induction false} LexLeTotal(a: string, b: string)
    ensures LexLe(a, b) || LexLe(b, a)
    decreases |a|
  {
    if |a| > 0 && |b| > 0 && a[0] == b[0] {
      LexLeTotal(a[1..], b[1..]);
    }
  }

  lemma {:induction false} LexLeTransitive(a: string, b: string, c: string)
    requires LexLe(a, b) && LexLe(b, c)
    ensures LexLe(a, c)
    decreases |a|
  {
    if |a| > 0 && |b| > 0 && |c| > 0 && a[0] == b[0] && b[0] == c[0] {
      LexLeTransitive(a[1..], b[1..], c[1..]);
    }
  }

  lemma {:induction false} LexLeAntisymmetric(a: string, b: string)
    requires LexLe(a, b) && LexLe(b, a)
    ensures a == b
    decreases |a|
  {
    if |a| > 0 && |b| > 0 {
      LexLeAntisymmetric(a[1..], b[1..]);
      assert a == [a[0]] + a[1..] && b == [b[0]] + b[1..];
    }
  }

  /** One decimal digit. */
  function DigitChar(d: nat): (c: char)
    requires d < 10
    ensures '0' <= c <= '9' && c as int - '0' as int == d
  {
    (d + '0' as int) as char
  }

  predicate IsDigits(s: string) {
    forall k :: 0 <= k < |s| ==> '0' <= s[k] <= '9'
  }

  /** Python's `str(n)` for a non-negative integer. */
  function NatToString(n: nat): (s: string)
    ensures |s| > 0 && IsDigits(s)
    ensures |s| > 1 ==> s[0] != '0'
  {
    if n < 10 then [DigitChar(n)] else NatToString(n / 10) + [DigitChar(n % 10)]
  }

  /** Python's `int(s)` on a string of decimal digits. */
  function ParseNat(s: string): nat
    requires IsDigits(s)
  {
    if |s| == 0 then 0
    else ParseNat(s[..|s| - 1]) * 10 + (s[|s| - 1] as int - '0' as int)
  }

  /** Decimal rendering loses nothing: parsing it back gives the number. */
  lemma {:induction false} NatToStringRoundTrip(n: nat)
    ensures ParseNat(NatToString(n)) == n
  {
    if n >= 10 {
      var s := NatToString(n);
      assert s[..|s| - 1] == NatToString(n / 10);
      NatToStringRoundTrip(n / 10);
    }
  }

  /** The first `limit` names and whether any were held back, as the
      language metrics display them. */
  datatype Abbreviation = Abbreviation(shown: seq<string>, more: bool)

  function Abbreviate(names: seq<string>, limit: nat): (a: Abbreviation)
    ensures |a.shown| == if |names| < limit then |names| else limit
    ensures a.shown <= names
    ensures a.more <==> |names| > limit
    ensures !a.more ==> a.shown == names
  {
    Abbreviation(Take(names, limit), |names| > limit)
  }

  /** `", ".join(shown) + ("..." if more else "")`. */
  function AbbreviationText(a: Abbreviation): string {
    Join(a.shown, ", ") + (if a.more then "..." else "")
  }
}

=== FILE: wrappers.dfy ===
/** The Option datatype used wherever the source returns `None` or reads a
    JSON key that may be absent. */
module Wrappers {

  datatype Option<+T> = None | Some(value: T) {

    /** The value, or `default` when absent (Python's `d.get(key, default)`). */
    function GetOr(default: T): T {
      match this
      case Some(v) => v
      case None => default
    }
  }
}
